=== FILE: README.md ===
# HashLockDB p2p layer: the mirror protocol and the chat peer registry

This project models, in Dafny, the two cores of the peer-to-peer node:

- the **file-mirror line protocol** of `src/index.ts`: the `data` handlers of
  accepted sockets (server side) and dialled sockets (client side), which trim
  a chunk, dispatch on its prefix (`CONNECT `, `CONNECTED `, `FILELIST `,
  `DATA `, `REQUESTFILE `) and split it on spaces; the line encoders
  `sendFileList`, `sendFile` and `requestFile`; the registry removal on `end`;
  the watcher's fan-out of `DATA` lines; and the console's `connect
  host:port/id` command;
- the **chat peer** of `src/peer.ts` (class `Peer`): the insert on connection,
  the delete on close, `broadcast` with the sender left out, `addPeer` with its
  address split and port range check, and the decoding of a `sender: content`
  line.

Every handler is one atomic, pure step. The state is the peer registry (a
JavaScript `Map` kept as an insertion-ordered sequence of key/socket pairs,
with `Registry.ToMap` giving the mapping it stands for) and, for the mirror,
the data directory as a map from file name to bytes. A step returns the new
state and the list of `(socket, line)` writes it made, in order.

Modules:

- `JsString` (`js_string.dfy`): `trim` with ECMAScript's whitespace set,
  `startsWith`, `split` on a string separator, `join`, and the `undefined`
  read past the end of an array (`Undefinable`).
- `JsNumber` (`js_number.dfy`): `parseInt` without a radix (leading
  whitespace, sign, `0x` prefix, longest digit run, NaN).
- `Registry` (`registry.dfy`): the `Map` operations `set`, `delete`, and the
  server's "remove the first entry holding this socket" loop.
- `Sockets` (`sockets.dfy`): socket ids, registry keys (a string or
  `undefined`) and recorded writes.
- `Mirror` (`mirror.dfy`): the handlers of `src/index.ts`.
- `MirrorParse`, `MirrorProofs`, `ConsoleProofs`: how each written line is read
  back, what each handler does with it, and exchanges between two nodes.
- `Chat`, `ChatProofs`: `src/peer.ts`.

The model follows the code as written: no file-name validation (any received name is used as the key), no
echo suppression (a received file is broadcast back, `MirrorProofs.ReceivedFileEchoes`),
every listed file is requested whether or not it is present, the dialling node
registers the answering peer under the key typed in `connect` (possibly
`undefined`) and ignores the identity the peer sends back in `CONNECTED`, and
chat lines exist only in `src/peer.ts` (the mirror's dispatchers ignore them).

## Model

| member | source | states |
|---|---|---|
| `JsString.TrimCutsWhitespace` | src/index.ts:55 | `trim` gives a slice of the chunk with only whitespace cut from either end, and neither end of the result is whitespace |
| `JsString.TrimOfTrimmed` | src/index.ts:55 | a string with no whitespace at either end is its own `trim` |
| `JsString.Split` | src/index.ts:58 | `split` yields at least one piece, and at least two when the separator occurs |
| `JsString.SplitPieces` | src/index.ts:58 | no piece of `split` holds the separator, and joining the pieces with it gives the string back |
| `JsString.FirstOccurrenceIsLeftmost` | src/index.ts:58 | the occurrence `split` cuts at is the leftmost one, and there is none when the separator does not occur |
| `JsString.SplitJoin` | src/index.ts:64 | for a non-empty list and a separator whose first character does not recur in it, splitting the joined list gives the list back when no piece holds the separator |
| `JsNumber.ParseIntOfDecimal` | src/peer.ts:45 | `parseInt` of a decimal numeral followed by a non-digit is the numeral's value |
| `JsNumber.ParseIntOfNegative` | src/peer.ts:45 | `parseInt("-n")` is `-n` (and `-0` compares as 0) |
| `JsNumber.ParseIntNoDigits` | src/peer.ts:45 | a text starting with a non-digit, non-sign, non-space character (such as `"undefined"`) parses to NaN |
| `Registry.Set` | src/index.ts:59 | `map.set` gives the old mapping updated at the key, keeps the key order when the key is present and appends the key otherwise |
| `Registry.Delete` | src/index.ts:142 | `map.delete` gives the old mapping without the key |
| `Registry.DeleteValid` | src/peer.ts:28 | `map.delete` keeps every key at most once in the entry sequence |
| `Registry.RemoveFirstWithValueAt` | src/index.ts:82-87 | the `end` loop removes exactly the first entry holding the socket and keeps the rest in order |
| `MirrorParse.SendFileLineParses` | src/index.ts:43-51 | for a file in the directory, `sendFile` writes one line on the socket that either side reads as DATA of that name and the file's base64 text (when that text round-trips); for any other name it writes nothing |
| `Mirror.RequestFiles` | src/index.ts:65-67 | one REQUESTFILE line per listed name, in list order, on the same socket |
| `Mirror.Fanout` | src/index.ts:166-170 | one write of the line per registry entry, to that entry's socket, in registry order |
| `MirrorParse.ConnectLineParses` | src/index.ts:57-58 | the line a dialling node writes is read by the accepting side as CONNECT of exactly its identity and ignored by a dialling side |
| `MirrorParse.ConnectedLineParses` | src/index.ts:118 | the accepting node's answer is read as CONNECTED by a dialling side and ignored by an accepting side |
| `MirrorParse.ConnectedIsNoConnect` | src/index.ts:57 | a message starting `CONNECTED ` does not start `CONNECT ` and is ignored by the accepting side |
| `MirrorParse.FileListLineParses` | src/index.ts:36-41 | a FILELIST line of a non-empty list of names without spaces, whose last name is non-empty and does not end in whitespace, reads back on either side as exactly those names, in order |
| `MirrorParse.EmptyFileListIgnored` | src/index.ts:38 | an empty directory's `FILELIST \n` trims to `FILELIST`, which no dispatcher acts on |
| `MirrorParse.DataLineParses` | src/index.ts:68-71 | a DATA line reads back as the same name and payload token, an empty token as the empty token |
| `MirrorParse.RequestFileLineParses` | src/index.ts:151-155 | a REQUESTFILE line reads back as a request for the same name |
| `MirrorProofs.ServerConnect` | src/index.ts:57-62 | a `CONNECT ` message maps its trimmed second token to the socket (replacing any earlier socket, keeping other keys), keeps the directory, and writes exactly CONNECTED then FILELIST |
| `MirrorProofs.ConnectLineRegisters` | src/index.ts:110-113 | a dialling node's first line registers it at the accepting node under its identity |
| `MirrorProofs.ConnectedLineRegisters` | src/index.ts:118-121 | a CONNECTED answer maps the typed peer key to the dialled socket and sends back the file list |
| `MirrorProofs.ServerIgnores` | src/index.ts:57-78 | the accepting side changes nothing and writes nothing for `CONNECTED ` lines and lines without a known prefix |
| `MirrorProofs.ClientIgnores` | src/index.ts:118-137 | the dialling side changes nothing and writes nothing for `CONNECT ` lines and lines without a known prefix |
| `MirrorProofs.FileListRequestsEach` | src/index.ts:63-67 | `FILELIST n1 … nk` makes either side write exactly k REQUESTFILE lines in list order and change nothing |
| `MirrorProofs.EmptyFileListDoesNothing` | src/index.ts:55 | the empty directory's list makes the reader do nothing |
| `MirrorProofs.DataStores` | src/index.ts:68-74 | DATA stores the decoded payload under the name, overwriting; every other file and the registry are unchanged and nothing is written |
| `MirrorProofs.RequestFileAnswers` | src/index.ts:75-77 | REQUESTFILE is answered with one DATA line for an existing file and nothing otherwise, and the node is unchanged |
| `MirrorProofs.ServerEndRemovesFirst` | src/index.ts:81-89 | `end` removes only the first entry holding the socket, keeps the others in order, and, in a registry whose keys are distinct, removes just that key from the mapping |
| `MirrorProofs.MirrorStepsKeepValid` | src/index.ts:55-182 | every handler (`data` on either side, `end` on either side, the watcher) keeps each key at most once in the registry, so from the empty registry the mapping clauses hold unconditionally |
| `Registry.RemoveFirstWithValueValid` | src/index.ts:82-87 | the `end` loop keeps each key at most once |
| `MirrorProofs.ServerEndUnregistered` | src/index.ts:82-88 | `end` of an unregistered socket changes nothing |
| `MirrorProofs.ServerEndLeavesSecondIdentity` | src/index.ts:82-87 | a socket that announced two identities keeps its second registration after `end` |
| `MirrorProofs.ClientEndDeletesKey` | src/index.ts:140-143 | the dialled socket's `end` removes exactly the typed key, whatever socket it holds, and is a no-op when the key is absent |
| `MirrorProofs.FanoutCounts` | src/index.ts:166-170 | each socket receives the line as many times as it is registered |
| `MirrorProofs.WatchEventFansOut` | src/index.ts:162-182 | add/change writes the same DATA line, carrying the new contents, to every registered socket with no exclusion; the directory holds the new contents and the registry is unchanged |
| `MirrorProofs.ReceivedFileEchoes` | src/index.ts:173-181 | a file received from a registered peer is sent straight back to that peer by the watcher |
| `MirrorProofs.WatchedFileServed` | src/index.ts:162-171 | after a file is added or changed, a REQUESTFILE for it is answered with the DATA line of the new contents |
| `MirrorProofs.HandshakeRegistersBoth` | src/index.ts:110-121 | the dialling node's first line is read by the accepting node as CONNECT of its identity, which it maps to the socket; the CONNECTED answer makes the dialling node map the key typed in `connect` (possibly `undefined`, not the other node's identity) to the dialled socket |
| `MirrorProofs.FetchOneFile` | src/index.ts:122-133 | a listed file is requested, answered and stored at the reader with the owner's contents |
| `ConsoleProofs.ConsoleAddress` | src/index.ts:106-107 | a `connect ` line dials its second space-separated token, whatever follows that token after a space |
| `ConsoleProofs.AddressOfParts` | src/index.ts:108-110 | `host:port/id…` gives the host, `parseInt` of whatever the port text is, and the key `id`, ignoring anything after a second `/` |
| `ConsoleProofs.AddressWithIdentity` | src/index.ts:108-110 | `host:port/id` with a decimal port gives the host, that port and the key `id` |
| `ConsoleProofs.AddressWithoutIdentity` | src/index.ts:109 | `host:port` gives an `undefined` peer key |
| `ConsoleProofs.AddressWithSecondColon` | src/index.ts:108-109 | in `host:port:…` (an IPv6 literal, say) the second `:` ends the port text, so the identity is lost and the peer key is `undefined` |
| `ConsoleProofs.ConsoleDial` | src/index.ts:105-110 | `connect host:port/id` dials that host and port for key `id` |
| `ConsoleProofs.ConsoleDialWithoutIdentity` | src/index.ts:105-109 | `connect host:port` dials with an `undefined` key |
| `ConsoleProofs.ConsoleWithoutPortThrows` | src/index.ts:108-109 | `connect host` without `:` throws a TypeError instead of dialling |
| `Chat.OnConnection` | src/peer.ts:16-18 | the accepted socket is mapped under the fresh hash, replacing its earlier socket, every other key kept, key order kept or extended |
| `Chat.OnClose` | src/peer.ts:26-29 | close deletes the captured key and no other |
| `Chat.OnCloseAbsent` | src/peer.ts:63-66 | close of an already removed key changes nothing |
| `Chat.SetFreshKeepsSocketsDistinct` | src/peer.ts:72 | registering a socket not yet registered keeps every socket under at most one key |
| `Chat.Broadcast` | src/peer.ts:34-40 | broadcast writes only the line `sender: message\n`, at most as many lines as there are entries, and returns no new registry |
| `Chat.BroadcastUnregistered` | src/peer.ts:35-39 | a socket not in the registry receives nothing |
| `Chat.BroadcastEntry` | src/peer.ts:36-37 | each entry's socket receives exactly one line unless its key is the sender, which receives none |
| `Chat.BroadcastDelivers` | src/peer.ts:34-40 | the socket of every key but the sender's receives the line exactly once, the sender's never |
| `JsString.SplitFirstTwo` | src/peer.ts:42-43 | the first two pieces of `split` on one character are the text before the first occurrence and the text between the first and the second |
| `JsString.BeforeAfter` | src/peer.ts:42-43 | a string is its text before the first occurrence of a character, the character, and the text after; without the character there is no "after" |
| `Chat.AddPeer` | src/peer.ts:41-73 | the host is the text before the first `:` of the part before the first `/`, the port is `parseInt` of the text between that `:` and the next, the key is the text between the first and second `/`; the peer is dialled exactly when the port lies in 0..65535, and then the key is mapped to the new socket (key order kept or extended); otherwise the registry is unchanged |
| `ChatProofs.AddPeerOfParts` | src/peer.ts:42-49 | `host:port…/hash…` is checked on `parseInt(port)` and registers under `hash`, whatever follows a second `:` or a second `/` |
| `ChatProofs.AddPeerChecksPort` | src/peer.ts:45-49 | a decimal port below 65536 dials and registers; 65536 and above changes nothing |
| `ChatProofs.AddPeerNegativePort` | src/peer.ts:46 | a negative port changes nothing, and `-0` is accepted as port 0 |
| `ChatProofs.AddPeerWithoutPort` | src/peer.ts:43-48 | an address without `:` has a NaN port and changes nothing |
| `ChatProofs.AddPeerWithoutHash` | src/peer.ts:42 | an address `host:port` with a decimal port below 65536 and no `/` registers the new socket under `undefined` |
| `ChatProofs.ChatRoundTrip` | src/peer.ts:21-22 | a receiver decodes a broadcast line to exactly its sender and message |
| `ChatProofs.ChatCut` | src/peer.ts:22 | a message holding `": "` is shown cut at its first `": "` |
| `ChatProofs.ChatEmptyMessage` | src/peer.ts:21-23 | an empty message is shown as `sender:` with an `undefined` content |
| `ChatProofs.OnConnectionKeepsSocketsDistinct` | src/peer.ts:16-18 | accepting a new socket keeps every socket under at most one key, and every key at most once |
| `ChatProofs.AddPeerKeepsSocketsDistinct` | src/peer.ts:51-72 | dialling a new socket keeps every socket under at most one key, and every key at most once |
| `ChatProofs.OnCloseKeepsSocketsDistinct` | src/peer.ts:26-29 | closing keeps every socket under at most one key and every key at most once |

## Left out

- Sockets, `net.createServer`/`listen`, `readline`, `commander` and `console`
  logging are I/O: a socket is an opaque number, a write is a recorded
  `(socket, line)` pair, log lines are dropped.
- The `error` handlers only log and are left out; so are the `connect`
  callback's log line and Node's own validation of the port passed to
  `net.createConnection` (a NaN port in `connect host:port` is dialled as
  parsed; what Node does with it is not modelled).
- The file system and the chokidar watcher: the directory is a map from file
  name to bytes, `existsSync` is membership, the contents the watcher reads are
  a parameter of its event (which also stores them in the directory), and
  `path.join`/`path.basename` are left out — the name is used verbatim as the
  key, so names with separators or `..` are not normalised.
- `readdirSync` is a function of the environment that is not constrained: the
  names it lists need not be the directory's keys, in any order or number.
  `MirrorParse.FileListLineParses` holds for whatever list it returns that
  is non-empty, has no name with a space, and ends in a non-empty name whose
  last character is not whitespace. A name with spaces, such as
  `my notes.txt`, is read back by the code as separate names (`my` and
  `notes.txt`), each requested on its own; an empty list is ignored
  (`MirrorParse.EmptyFileListIgnored`).
- `Mirror.SendFile`: a name that is empty, `.` or `..` names a directory, which
  `existsSync` accepts and `readFileSync` then throws on (EISDIR); the model
  has no directories and looks the name up as a key of the data directory
  map, answering with nothing when it is not one and with the stored file
  when an earlier DATA line stored one under it. A name such as
  `../x` is joined by the code to a path outside the data directory and that
  file is served; the model looks `../x` up in the data directory only.
- `MirrorProofs.DataStores`: `writeFileSync` throws when the name is empty or
  `.` (EISDIR) or names a missing subdirectory (ENOENT), and writes outside the
  data directory for `../x`; the model always stores the file under the name.
- `MirrorProofs.RequestFileAnswers`: states the model's answer, so it shares
  the limits of `Mirror.SendFile` above for `.`, `..` and `../x`.
- `Split`: the pieces of `split` and the join that gives the string back are
  stated by `JsString.SplitPieces` and the leftmost cut by
  `JsString.FirstOccurrenceIsLeftmost`, not by `JsString.Split`'s own contract,
  which keeps only the piece counts.
- `Trim`: the whitespace cut from either end is stated by
  `JsString.TrimCutsWhitespace`, not in `JsString.Trim`'s own contract.
- Node's base64 codec (`toString('base64')`, `Buffer.from(_, 'base64')`) is a
  pair of uninterpreted functions; the fetch lemma assumes decoding undoes
  encoding for the file fetched.
- `generateIdentity` (`src/index.ts:11-13`) and `generateHash`
  (`src/identity.ts`) are random: the identity is a field of the environment
  and each fresh hash and each new socket is a parameter.
- TCP chunking: each `data` event is treated as exactly one message, as the
  code does; two writes that arrive coalesced in one chunk (the CONNECTED and
  FILELIST lines) are not modelled.
- Interleaving of connections: every handler call is one atomic step.
- Byte-to-string decoding of chunks (`data.toString()` as UTF-8) is left out:
  chunks are strings of Unicode scalar values.
- `parseInt` returns a double in JavaScript; the model keeps the exact integer,
  which agrees with every comparison the port check makes.
- The exchanges (`MirrorProofs.HandshakeRegistersBoth`, `MirrorProofs.FetchOneFile`)
  compose single steps; they do not model connection establishment or delivery.

=== FILE: chat.dfy ===
/**
  The chat peer of `src/peer.ts` (class `Peer`), one handler or method
  call at a time. Its state is the registry `peers`: keys are the hashes
  made for accepted sockets and the hashes typed after `/` in `addPeer`
  (or `undefined` when none was typed). Fresh hashes and new sockets
  are parameters.
*/
module Chat {
  import opened JsString
  import opened JsNumber
  import opened Sockets
  import Registry

  // ----- registration -----

  /** `onConnection`: the accepted socket goes in under the freshly made hash,
      replacing whatever that hash held; every other key is kept. */
  function OnConnection(peers: Peers, sock: Socket, hash: string): (r: Peers)
    ensures Registry.ToMap(r) == Registry.ToMap(peers)[Defined(hash) := sock]
    ensures Defined(hash) in Registry.Keys(peers) ==> Registry.Keys(r) == Registry.Keys(peers)
    ensures Defined(hash) !in Registry.Keys(peers) ==> Registry.Keys(r) == Registry.Keys(peers) + [Defined(hash)]
  {
    Registry.Set(peers, Defined(hash), sock)
  }

  /** The `close` handlers of accepted and dialled sockets: the key the
      handler captured is deleted, and no other key. */
  function OnClose(peers: Peers, key: Key): (r: Peers)
    ensures Registry.ToMap(r) == Registry.ToMap(peers) - {key}
  {
    Registry.Delete(peers, key)
  }

  /** Closing a socket whose key is no longer registered changes nothing. */
  lemma OnCloseAbsent(peers: Peers, key: Key)
    requires key !in Registry.Keys(peers)
    ensures OnClose(peers, key) == peers
  {
    Registry.DeleteAbsent(peers, key);
  }

  /** No socket is registered under two keys. */
  predicate SocketsDistinct(peers: Peers) {
    forall i, j :: 0 <= i < j < |peers| ==> peers[i].1 != peers[j].1
  }

  /** Registering a socket that is not yet registered — every socket the
      peer registers is new — keeps sockets distinct. */
  lemma SetFreshKeepsSocketsDistinct(peers: Peers, key: Key, newSocket: Socket)
    requires SocketsDistinct(peers) && newSocket !in Registry.Values(peers)
    ensures SocketsDistinct(Registry.Set(peers, key, newSocket))
    decreases |peers|
  {
    if |peers| > 0 && peers[0].0 != key {
      var tail := peers[1..];
      assert Registry.Values(peers) == [peers[0].1] + Registry.Values(tail);
      SetFreshKeepsSocketsDistinct(tail, key, newSocket);
      var r := Registry.Set(peers, key, newSocket);
      assert r == [peers[0]] + Registry.Set(tail, key, newSocket);
      SetKeepsOrMakesSocket(tail, key, newSocket, peers[0].1);
    }
  }

  /** After `set`, a socket is registered only if it was before or is the new one. */
  lemma SetKeepsOrMakesSocket(peers: Peers, key: Key, newSocket: Socket, s: Socket)
    requires s != newSocket && s !in Registry.Values(peers)
    ensures s !in Registry.Values(Registry.Set(peers, key, newSocket))
    decreases |peers|
  {
    if |peers| > 0 {
      assert Registry.Values(peers) == [peers[0].1] + Registry.Values(peers[1..]);
      SetKeepsOrMakesSocket(peers[1..], key, newSocket, s);
      var r := Registry.Set(peers, key, newSocket);
      if peers[0].0 == key {
        assert Registry.Values(r) == [newSocket] + Registry.Values(peers[1..]);
      } else {
        assert Registry.Values(r) == [peers[0].1] + Registry.Values(Registry.Set(peers[1..], key, newSocket));
      }
    }
  }

  // ----- broadcast -----

  /** The line `broadcast` writes. */
  function ChatLine(sender: string, message: string): string {
    sender + ": " + message + "\n"
  }

  /** `broadcast(message, sender)`: in registry order, every peer whose
      key is not `sender` is written the chat line. Only writes come back:
      the registry is not touched. */
  function Broadcast(peers: Peers, message: string, sender: string): (out: seq<Write>)
    ensures |out| <= |peers|
    ensures forall i :: 0 <= i < |out| ==> out[i].line == ChatLine(sender, message)
  {
    if |peers| == 0 then []
    else
      var head := if peers[0].0 != Defined(sender) then [Write(peers[0].1, ChatLine(sender, message))] else [];
      head + Broadcast(peers[1..], message, sender)
  }

  /** A socket that is not registered is written nothing. */
  lemma {:induction false} BroadcastUnregistered(peers: Peers, message: string, sender: string, s: Socket)
    requires s !in Registry.Values(peers)
    ensures WritesTo(Broadcast(peers, message, sender), s) == 0
    decreases |peers|
  {
    if |peers| > 0 {
      assert Registry.Values(peers) == [peers[0].1] + Registry.Values(peers[1..]);
      BroadcastUnregistered(peers[1..], message, sender, s);
      var head := if peers[0].0 != Defined(sender) then [Write(peers[0].1, ChatLine(sender, message))] else [];
      WritesToAppend(head, Broadcast(peers[1..], message, sender), s);
    }
  }

  /** The socket of entry `i` is written once, unless its key is the
      sender, in which case it is written nothing. */
  lemma {:induction false} BroadcastEntry(peers: Peers, message: string, sender: string, i: nat)
    requires SocketsDistinct(peers) && i < |peers|
    ensures WritesTo(Broadcast(peers, message, sender), peers[i].1) == if peers[i].0 == Defined(sender) then 0 else 1
    decreases |peers|
  {
    var tail := peers[1..];
    var head := if peers[0].0 != Defined(sender) then [Write(peers[0].1, ChatLine(sender, message))] else [];
    WritesToAppend(head, Broadcast(tail, message, sender), peers[i].1);
    if i == 0 {
      assert peers[0].1 !in Registry.Values(tail) by {
        forall j | 0 <= j < |tail| ensures Registry.Values(tail)[j] != peers[0].1 {
          assert tail[j] == peers[j + 1];
        }
      }
      BroadcastUnregistered(tail, message, sender, peers[0].1);
    } else {
      assert peers[0].1 != peers[i].1;
      assert SocketsDistinct(tail) by {
        forall a, b | 0 <= a < b < |tail| ensures tail[a].1 != tail[b].1 {
          assert tail[a] == peers[a + 1] && tail[b] == peers[b + 1];
        }
      }
      assert tail[i - 1] == peers[i];
      BroadcastEntry(tail, message, sender, i - 1);
    }
  }

  /** Who hears a broadcast: the socket registered under each key other
      than the sender's is written exactly once, the sender's socket never,
      and a socket that is not registered never. */
  lemma BroadcastDelivers(peers: Peers, message: string, sender: string, key: Key)
    requires Registry.Valid(peers) && SocketsDistinct(peers)
    requires key in Registry.ToMap(peers)
    ensures WritesTo(Broadcast(peers, message, sender), Registry.ToMap(peers)[key])
      == if key == Defined(sender) then 0 else 1
  {
    Registry.ToMapKeys(peers, key);
    var i :| 0 <= i < |peers| && Registry.Keys(peers)[i] == key;
    Registry.ToMapAt(peers, i);
    BroadcastEntry(peers, message, sender, i);
  }

  // ----- addPeer -----

  /** The port check of `addPeer`: `isNaN(p) || p < 0 || p >= 65536` rejects. */
  predicate PortAccepted(p: Number) {
    p.Int? && 0 <= p.value < 65536
  }

  datatype Dialling = Dialling(host: string, port: nat, peer: Key)

  /** What `addPeer` leaves behind: the registry, and the connection it
      opened (`Undefined` when the port was rejected). */
  datatype AddPeerStep = AddPeerStep(peers: Peers, dialled: Undefinable<Dialling>)

  /** `addPeer(peerInfo)`: `host:port/hash` is split on `/`, the part
      before the first `/` on `:`; a port outside 0..65535 (or none, which
      is `parseInt("undefined")`) returns at once, otherwise the new socket
      `newSocket` is dialled and registered under the hash.

      The contract reads the address character by character: the host is
      the text before the first `:` of the part before the first `/`, the
      port text what lies between that `:` and the next, and the key the
      text between the first and the second `/`. */
  function AddPeer(peers: Peers, info: string, newSocket: Socket): (r: AddPeerStep)
    ensures var hostPort := Before(info, '/');
      var port := ParseInt(ToStr(SecondPiece(hostPort, ':')));
      var key := SecondPiece(info, '/');
      && (r.dialled.Defined? <==> PortAccepted(port))
      && (r.dialled.Undefined? ==> r.peers == peers)
      && (r.dialled.Defined? ==>
           && r.dialled.value == Dialling(Before(hostPort, ':'), port.value, key)
           && r.peers == Registry.Set(peers, key, newSocket)
           && Registry.ToMap(r.peers) == Registry.ToMap(peers)[key := newSocket])
  {
    var hostPortAndHash := Split(info, "/");
    SplitFirstTwo(info, '/');
    var hostAndPort := Split(hostPortAndHash[0], ":");
    SplitFirstTwo(hostPortAndHash[0], ':');
    var port := ParseInt(ToStr(At(hostAndPort, 1)));
    if !PortAccepted(port) then AddPeerStep(peers, Undefined)
    else
      var peer := At(hostPortAndHash, 1);
      AddPeerStep(Registry.Set(peers, peer, newSocket), Defined(Dialling(hostAndPort[0], port.value, peer)))
  }

  // ----- decoding a chat line -----

  /** What a receiving peer logs: `[sender]: content`, where `content` is
      `undefined` when the line held no `": "`. */
  datatype Shown = Shown(sender: string, content: Undefinable<string>)

  /** The `data` handlers of both accepted and dialled sockets: trim, then
      split on `": "` and keep the first two pieces. */
  function DecodeChat(chunk: string): Shown {
    var parts := Split(Trim(chunk), ": ");
    Shown(parts[0], At(parts, 1))
  }
}

=== FILE: chat_proofs.dfy ===
/**
  Properties of the chat peer that relate several calls: which addresses
  `addPeer` accepts and under which key it registers, and what a receiver
  decodes from a line `broadcast` wrote.
*/
module ChatProofs {
  import opened JsString
  import opened JsNumber
  import opened Sockets
  import opened Chat
  import Registry

  // ----- addPeer -----

  /** `addPeer` on `host:port…/hash…`: the port text lies between the
      first `:` and the next `:` or `/`, and the key between the first `/`
      and the next. Whatever follows a second `:` before the `/`, or a
      second `/`, is ignored. The port is checked and then the new socket
      is registered under `hash`. */
  lemma AddPeerOfParts(peers: Peers, host: string, portText: string, c: string, hash: string, t: string, s: Socket)
    requires ':' !in host && '/' !in host
    requires ':' !in portText && '/' !in portText
    requires '/' !in c && (c == [] || c[0] == ':')
    requires '/' !in hash && (t == [] || t[0] == '/')
    ensures var r := AddPeer(peers, host + ":" + portText + c + "/" + hash + t, s);
      var port := ParseInt(portText);
      && (!PortAccepted(port) ==> r == AddPeerStep(peers, Undefined))
      && (PortAccepted(port) ==>
           r == AddPeerStep(Registry.Set(peers, Defined(hash), s), Defined(Dialling(host, port.value, Defined(hash)))))
  {
    var hostPort := host + ":" + portText + c;
    var info := host + ":" + portText + c + "/" + hash + t;
    assert info == hostPort + ['/'] + (hash + t);
    assert '/' !in hostPort;
    BeforeConcat(hostPort, '/', hash + t);
    BeforeStop(hash, '/', t);
    assert SecondPiece(info, '/') == Defined(hash);
    assert hostPort == host + [':'] + (portText + c);
    BeforeConcat(host, ':', portText + c);
    BeforeStop(portText, ':', c);
    assert SecondPiece(hostPort, ':') == Defined(portText);
  }

  /** `host:port/hash` with a decimal port: a port below 65536 dials `host`
      and maps `hash` to the new socket; from 65536 up nothing happens. */
  lemma AddPeerChecksPort(peers: Peers, host: string, port: nat, hash: string, s: Socket)
    requires ':' !in host && '/' !in host && '/' !in hash
    ensures var r := AddPeer(peers, host + ":" + DecimalText(port) + "/" + hash, s);
      && (port < 65536 ==>
           r == AddPeerStep(Registry.Set(peers, Defined(hash), s), Defined(Dialling(host, port, Defined(hash)))))
      && (port >= 65536 ==> r == AddPeerStep(peers, Undefined))
  {
    DecimalTextPlain(port);
    var digits := DecimalText(port);
    assert host + ":" + digits + "/" + hash == host + ":" + digits + "" + "/" + hash + "";
    AddPeerOfParts(peers, host, digits, "", hash, "", s);
    ParseIntOfDecimalText(port);
  }

  /** A negative port is rejected; `-0` parses as JavaScript's `-0`, which
      passes the range check as port 0. */
  lemma {:induction false} AddPeerNegativePort(peers: Peers, host: string, n: nat, hash: string, s: Socket)
    requires ':' !in host && '/' !in host && '/' !in hash
    ensures var r := AddPeer(peers, host + ":-" + DecimalText(n) + "/" + hash, s);
      && (n > 0 ==> r == AddPeerStep(peers, Undefined))
      && (n == 0 ==> r.dialled == Defined(Dialling(host, 0, Defined(hash))))
  {
    var digits := DecimalText(n);
    var portText := "-" + digits;
    var info := host + ":-" + digits + "/" + hash;
    DecimalTextPlain(n);
    assert ':' !in portText && '/' !in portText;
    assert info == host + ":" + portText + "" + "/" + hash + "";
    AddPeerOfParts(peers, host, portText, "", hash, "", s);
    ParseIntOfNegative(n);
  }

  /** Without a `:` the port is `parseInt(undefined)`, NaN: nothing happens. */
  lemma AddPeerWithoutPort(peers: Peers, host: string, hash: string, s: Socket)
    requires ':' !in host && '/' !in host && '/' !in hash
    ensures AddPeer(peers, host + "/" + hash, s) == AddPeerStep(peers, Undefined)
  {
    assert host + "/" + hash == host + ['/'] + hash;
    BeforeConcat(host, '/', hash);
    BeforeAfter(host, ':');
    assert SecondPiece(host, ':') == Undefined;
    ParseIntNoDigits("undefined");
  }

  /** Without `/hash` the new socket is registered under `undefined`. */
  lemma AddPeerWithoutHash(peers: Peers, host: string, port: nat, s: Socket)
    requires ':' !in host && '/' !in host && port < 65536
    ensures AddPeer(peers, host + ":" + DecimalText(port), s)
      == AddPeerStep(Registry.Set(peers, Undefined, s), Defined(Dialling(host, port, Undefined)))
  {
    var digits := DecimalText(port);
    var hostPort := host + ":" + digits;
    DecimalTextPlain(port);
    assert '/' !in hostPort;
    BeforeAfter(hostPort, '/');
    assert SecondPiece(hostPort, '/') == Undefined;
    assert hostPort == host + [':'] + digits;
    BeforeConcat(host, ':', digits);
    BeforeAfter(digits, ':');
    assert SecondPiece(hostPort, ':') == Defined(digits);
    ParseIntOfDecimalText(port);
  }

  // ----- decoding what broadcast wrote -----

  lemma ColonSpaceSeparator()
    ensures FirstCharUnique(": ")
  {
  }

  /** A line of `broadcast` without `": "` in it trims to the joined text. */
  lemma TrimChatLine(sender: string, message: string)
    requires sender == [] || !IsWhitespace(sender[0])
    requires message != [] && !IsWhitespace(message[|message| - 1])
    ensures Trim(ChatLine(sender, message)) == sender + ": " + message
  {
    var m := sender + ": " + message;
    assert ChatLine(sender, message) == m + "\n";
    assert m[0] == if sender == [] then ':' else sender[0];
    assert m[|m| - 1] == message[|message| - 1];
    TrimLine(m);
  }

  /** Chat round trip: the receiver shows exactly the sender and message a
      broadcast carried, when neither holds `": "`, the sender does not
      start with whitespace and the message is non-empty and does not end
      with it. */
  lemma ChatRoundTrip(sender: string, message: string)
    requires !Contains(sender, ": ") && !Contains(message, ": ")
    requires sender == [] || !IsWhitespace(sender[0])
    requires message != [] && !IsWhitespace(message[|message| - 1])
    ensures DecodeChat(ChatLine(sender, message)) == Shown(sender, Defined(message))
  {
    TrimChatLine(sender, message);
    SplitChatLine(sender, message);
    DecodeTrimmed(ChatLine(sender, message), sender + ": " + message);
  }

  /** The chat line's two pieces come apart at their one `": "`. */
  lemma SplitChatLine(sender: string, message: string)
    requires !Contains(sender, ": ") && !Contains(message, ": ")
    ensures Split(sender + ": " + message, ": ") == [sender, message]
  {
    ColonSpaceSeparator();
    SplitAfterPiece(sender, ": ", message);
    SplitWithout(message, ": ");
  }

  lemma DecodeTrimmed(chunk: string, m: string)
    requires Trim(chunk) == m
    ensures DecodeChat(chunk) == Shown(Split(m, ": ")[0], At(Split(m, ": "), 1))
  {
  }

  /** A message holding `": "` is shown cut at its first `": "`. */
  lemma ChatCut(sender: string, a: string, b: string)
    requires !Contains(sender, ": ") && !Contains(a, ": ")
    requires sender == [] || !IsWhitespace(sender[0])
    requires b != [] && !IsWhitespace(b[|b| - 1])
    ensures DecodeChat(ChatLine(sender, a + ": " + b)) == Shown(sender, Defined(a))
  {
    var message := a + ": " + b;
    var m := sender + ": " + message;
    assert message[|message| - 1] == b[|b| - 1];
    TrimChatLine(sender, message);
    ColonSpaceSeparator();
    SplitAfterPiece(sender, ": ", message);
    SplitAfterPiece(a, ": ", b);
    var parts := [sender] + ([a] + Split(b, ": "));
    assert Split(m, ": ") == parts;
    DecodeTrimmed(ChatLine(sender, message), m);
    assert parts[0] == sender && parts[1] == a;
  }

  /** `sender + ":"` holds no `": "` when `sender` holds none. */
  lemma NoSeparatorAfterColon(sender: string)
    requires !Contains(sender, ": ")
    ensures !Contains(sender + ":", ": ")
  {
    var s := sender + ":";
    forall j: nat | j <= |s| ensures !OccursAt(s, ": ", j) {
      if j + 2 <= |sender| {
        assert s[j..j + 2] == sender[j..j + 2];
        assert !OccursAt(sender, ": ", j);
      } else if j + 2 <= |s| {
        assert s[j + 1] == ':';
      }
    }
  }

  /** An empty message loses its space to `trim`: the receiver shows the
      sender with a colon appended and an `undefined` content. */
  lemma ChatEmptyMessage(sender: string)
    requires !Contains(sender, ": ")
    requires sender == [] || !IsWhitespace(sender[0])
    ensures DecodeChat(ChatLine(sender, "")) == Shown(sender + ":", Undefined)
  {
    var m := sender + ":";
    assert ChatLine(sender, "") == m + " \n";
    assert m[0] == if sender == [] then ':' else sender[0];
    TrimBeforeWhitespace(m, " \n");
    NoSeparatorAfterColon(sender);
    SplitWithout(m, ": ");
  }

  // ----- registration across calls -----

  /** Every socket the chat peer registers is new, so accepting a socket
      never leaves one socket under two keys. */
  lemma OnConnectionKeepsSocketsDistinct(peers: Peers, s: Socket, hash: string)
    requires SocketsDistinct(peers) && s !in Registry.Values(peers)
    ensures SocketsDistinct(OnConnection(peers, s, hash))
    ensures Registry.Valid(peers) ==> Registry.Valid(OnConnection(peers, s, hash))
  {
    SetFreshKeepsSocketsDistinct(peers, Defined(hash), s);
    if Registry.Valid(peers) {
      Registry.SetValid(peers, Defined(hash), s);
    }
  }

  /** Nor does dialling a new socket in `addPeer`. */
  lemma AddPeerKeepsSocketsDistinct(peers: Peers, info: string, s: Socket)
    requires SocketsDistinct(peers) && s !in Registry.Values(peers)
    ensures SocketsDistinct(AddPeer(peers, info, s).peers)
    ensures Registry.Valid(peers) ==> Registry.Valid(AddPeer(peers, info, s).peers)
  {
    var r := AddPeer(peers, info, s);
    if r.dialled.Defined? {
      SetFreshKeepsSocketsDistinct(peers, r.dialled.value.peer, s);
      if Registry.Valid(peers) {
        Registry.SetValid(peers, r.dialled.value.peer, s);
      }
    }
  }

  /** Nor does a `close` handler: deleting a key only drops entries. */
  lemma {:induction false} OnCloseKeepsSocketsDistinct(peers: Peers, key: Key)
    requires SocketsDistinct(peers)
    ensures SocketsDistinct(OnClose(peers, key))
    ensures Registry.Valid(peers) ==> Registry.Valid(OnClose(peers, key))
  {
    if Registry.Valid(peers) {
      Registry.DeleteValid(peers, key);
    }
    if |peers| > 0 {
      var tail := peers[1..];
      assert SocketsDistinct(tail) by {
        forall i, j | 0 <= i < j < |tail| ensures tail[i].1 != tail[j].1 {
          assert tail[i] == peers[i + 1] && tail[j] == peers[j + 1];
        }
      }
      OnCloseKeepsSocketsDistinct(tail, key);
      if peers[0].0 != key {
        var d := OnClose(tail, key);
        Registry.DeleteKeepsEntries(tail, key);
        forall j | 0 <= j < |d| ensures d[j].1 != peers[0].1 {
          var m :| 0 <= m < |tail| && tail[m] == d[j];
          assert tail[m] == peers[m + 1];
        }
        var r := OnClose(peers, key);
        assert r == [peers[0]] + d;
        forall i, j | 0 <= i < j < |r| ensures r[i].1 != r[j].1 {
          if i == 0 {
            assert r[j] == d[j - 1];
          } else {
            assert r[i] == d[i - 1] && r[j] == d[j - 1];
          }
        }
      }
    }
  }
}

=== FILE: console_proofs.dfy ===
/**
  The console's `connect host:port/id` command: which host, port and peer
  key it dials, and the inputs on which it throws instead.
*/
module ConsoleProofs {
  import opened JsString
  import opened JsNumber
  import opened Mirror
  import opened MirrorParse

  /** The first space-separated token of `word + rest` is `word` when
      `rest` is empty or starts a new token. */
  lemma FirstWord(word: string, rest: string)
    requires ' ' !in word && (rest == [] || rest[0] == ' ')
    ensures Split(word + rest, " ")[0] == word
  {
    if rest == [] {
      assert word + rest == word;
      SplitSpaceless(word);
    } else {
      assert word + rest == word + " " + rest[1..];
      SplitWord(word, rest[1..]);
    }
  }

  /** A `connect ` line dials whatever its second space-separated token
      says; anything after that token is ignored. */
  lemma ConsoleAddress(address: string, rest: string)
    requires ' ' !in address && (rest == [] || rest[0] == ' ')
    ensures ParseConsoleLine("connect " + address + rest) == ParseAddress(address)
  {
    var tail := address + rest;
    var input := "connect " + address + rest;
    assert input == "connect" + " " + tail;
    SplitWord("connect", tail);
    FirstWord(address, rest);
    StartsWithConcat("connect ", tail);
    assert Split(input, " ")[1] == address;
  }

  /** The text between the first `c` and the next, in `x + y` where `x`
      holds no `c` and `y` is empty or starts with `c`, is `x`. */
  lemma FirstPiece(x: string, c: char, y: string)
    requires c !in x && (y == [] || y[0] == c)
    ensures Split(x + y, [c])[0] == x
  {
    if y == [] {
      assert x + y == x;
      SplitFreeOfChar(x, c);
    } else {
      assert x + y == x + [c] + y[1..];
      SplitOnChar(x, c, y[1..]);
    }
  }

  /** `host:port/id…` dials `host` on `parseInt(port)` for the peer key
      `id`, whatever the port text is and whatever follows a second `/`. */
  lemma AddressOfParts(host: string, portText: string, id: string, t: string)
    requires ':' !in host
    requires ':' !in portText && '/' !in portText
    requires ':' !in id && '/' !in id
    requires ':' !in t && (t == [] || t[0] == '/')
    ensures ParseAddress(host + ":" + portText + "/" + id + t) == Dial(host, ParseInt(portText), Defined(id))
  {
    var address := host + ":" + portText + "/" + id + t;
    var rest := portText + "/" + id + t;
    assert ':' !in rest;
    assert address == host + [':'] + rest;
    SplitOnChar(host, ':', rest);
    SplitFreeOfChar(rest, ':');
    assert Split(address, ":") == [host, rest];
    assert rest == portText + ['/'] + (id + t);
    SplitOnChar(portText, '/', id + t);
    FirstPiece(id, '/', t);
  }

  /** `host:port/id` with a decimal port dials `host` on that port for
      the peer key `id`. */
  lemma AddressWithIdentity(host: string, port: nat, id: string)
    requires ':' !in host && ':' !in id && '/' !in id
    ensures ParseAddress(host + ":" + DecimalText(port) + "/" + id) == Dial(host, Int(port), Defined(id))
  {
    DecimalTextPlain(port);
    AddressOfParts(host, DecimalText(port), id, "");
    assert host + ":" + DecimalText(port) + "/" + id + "" == host + ":" + DecimalText(port) + "/" + id;
    ParseIntOfDecimalText(port);
  }

  /** `host:port` without `/id` dials with an `undefined` peer key. */
  lemma AddressWithoutIdentity(host: string, port: nat)
    requires ':' !in host
    ensures ParseAddress(host + ":" + DecimalText(port)) == Dial(host, Int(port), Undefined)
  {
    var digits := DecimalText(port);
    DecimalTextPlain(port);
    assert host + ":" + digits == host + [':'] + digits;
    SplitOnChar(host, ':', digits);
    SplitFreeOfChar(digits, ':');
    SplitFreeOfChar(digits, '/');
    ParseIntOfDecimalText(port);
  }

  /** A second `:` in the address (`host:port:x/id`, as in an IPv6
      literal) ends the port text before the `/`, so the identity is cut
      off and the peer key is `undefined`. */
  lemma {:induction false} AddressWithSecondColon(host: string, port: nat, rest: string)
    requires ':' !in host
    ensures ParseAddress(host + ":" + DecimalText(port) + ":" + rest) == Dial(host, Int(port), Undefined)
  {
    var digits := DecimalText(port);
    var address := host + ":" + digits + ":" + rest;
    DecimalTextPlain(port);
    assert address == host + [':'] + (digits + [':'] + rest);
    SplitFirstTwo(address, ':');
    BeforeConcat(host, ':', digits + [':'] + rest);
    BeforeConcat(digits, ':', rest);
    assert SecondPiece(address, ':') == Defined(digits);
    SplitFreeOfChar(digits, '/');
    ParseIntOfDecimalText(port);
  }

  /** `connect host:port/id` dials `host` on `port` for the peer key `id`,
      under which the dialling node registers the socket once answered. */
  lemma ConsoleDial(host: string, port: nat, id: string)
    requires ' ' !in host && ':' !in host
    requires ' ' !in id && ':' !in id && '/' !in id
    ensures ParseConsoleLine("connect " + host + ":" + DecimalText(port) + "/" + id)
      == Dial(host, Int(port), Defined(id))
  {
    var address := host + ":" + DecimalText(port) + "/" + id;
    DecimalTextPlain(port);
    assert ' ' !in address;
    assert "connect " + host + ":" + DecimalText(port) + "/" + id == "connect " + address;
    assert "connect " + address + "" == "connect " + address;
    ConsoleAddress(address, "");
    AddressWithIdentity(host, port, id);
  }

  /** `connect host:port` dials with an `undefined` peer key, which is the
      key the dialling node then registers the socket under. */
  lemma ConsoleDialWithoutIdentity(host: string, port: nat)
    requires ' ' !in host && ':' !in host
    ensures ParseConsoleLine("connect " + host + ":" + DecimalText(port)) == Dial(host, Int(port), Undefined)
  {
    var address := host + ":" + DecimalText(port);
    DecimalTextPlain(port);
    assert ' ' !in address;
    assert "connect " + host + ":" + DecimalText(port) == "connect " + address;
    assert "connect " + address + "" == "connect " + address;
    ConsoleAddress(address, "");
    AddressWithoutIdentity(host, port);
  }

  /** `connect host` without a `:` reads `.split` of `undefined`, which throws. */
  lemma ConsoleWithoutPortThrows(host: string)
    requires ' ' !in host && ':' !in host
    ensures ParseConsoleLine("connect " + host) == TypeError
  {
    assert "connect " + host + "" == "connect " + host;
    ConsoleAddress(host, "");
    SplitFreeOfChar(host, ':');
  }
}

=== FILE: js_number.dfy ===
/**
  The global `parseInt` of JavaScript, called with no radix, as the port
  check of the chat peer uses it: leading whitespace is skipped, one `+`
  or `-` sign is accepted, a `0x`/`0X` prefix switches to base 16, and the
  longest run of digits that follows is read; no digits at all gives NaN.

  JavaScript returns a double; every result the port range check can tell
  apart (below 0, 0 to 65535, 65536 and above) is exact, so the value is
  kept as a mathematical integer. `-0` is kept as `0`, which is how the
  comparisons `< 0` and `>= 65536` treat it.
*/
module JsNumber {
  import opened JsString

  datatype Number = NaN | Int(value: int)

  /** The value of `c` as a digit in any base up to 36; 36 when `c` is not a digit at all. */
  function DigitOf(c: char): nat {
    if '0' <= c <= '9' then c as nat - '0' as nat
    else if 'a' <= c <= 'z' then c as nat - 'a' as nat + 10
    else if 'A' <= c <= 'Z' then c as nat - 'A' as nat + 10
    else 36
  }

  /** Digits are neither whitespace nor a sign. */
  lemma DigitIsPlain(c: char)
    requires DigitOf(c) < 36
    ensures !IsWhitespace(c) && c != '+' && c != '-'
  {
  }

  /** The longest prefix of `s` made of digits of the given base. */
  function LeadingDigits(s: string, radix: nat): (r: string)
    ensures |r| <= |s| && r == s[..|r|]
    ensures forall i :: 0 <= i < |r| ==> DigitOf(r[i]) < radix
    ensures |r| < |s| ==> DigitOf(s[|r|]) >= radix
  {
    if |s| > 0 && DigitOf(s[0]) < radix then [s[0]] + LeadingDigits(s[1..], radix) else []
  }

  /** The number written by the digits `ds`, most significant first. */
  function ValueOf(ds: string, radix: nat): nat {
    if |ds| == 0 then 0 else ValueOf(ds[..|ds| - 1], radix) * radix + DigitOf(ds[|ds| - 1])
  }

  /** The number after the sign: a `0x`/`0X` prefix selects base 16,
      otherwise base 10; `Undefined` when no digit follows. */
  function Magnitude(u: string): Undefinable<nat> {
    var hex := |u| >= 2 && u[0] == '0' && (u[1] == 'x' || u[1] == 'X');
    var radix := if hex then 16 else 10;
    var ds := LeadingDigits(if hex then u[2..] else u, radix);
    if |ds| == 0 then Undefined else Defined(ValueOf(ds, radix))
  }

  function ParseInt(s: string): Number {
    var t := TrimStart(s);
    if |t| > 0 && t[0] == '-' then
      match Magnitude(t[1..])
      case Undefined => NaN
      case Defined(m) => Int(-(m as int))
    else
      var u := if |t| > 0 && t[0] == '+' then t[1..] else t;
      match Magnitude(u)
      case Undefined => NaN
      case Defined(m) => Int(m)
  }

  /** The magnitude of a decimal numeral followed by a non-digit. */
  lemma MagnitudeOfDecimal(n: nat, rest: string)
    requires rest == [] || (DigitOf(rest[0]) >= 10 && rest[0] != 'x' && rest[0] != 'X')
    ensures Magnitude(DecimalText(n) + rest) == Defined(n)
  {
    var u := DecimalText(n) + rest;
    if |u| >= 2 && u[0] == '0' {
      assert DecimalText(n)[0] == '0';
      assert n == 0 && u[1] == rest[0];
    }
    LeadingDigitsStop(DecimalText(n), rest, 10);
    ValueOfDecimalText(n);
  }

  function DigitChar(d: nat): (c: char)
    requires d < 10
    ensures DigitOf(c) == d
  {
    (d + '0' as nat) as char
  }

  /** The decimal numeral of `n`, without leading zeros, as `String(n)` writes it. */
  function DecimalText(n: nat): (r: string)
    ensures |r| > 0
    ensures forall i :: 0 <= i < |r| ==> DigitOf(r[i]) < 10
    ensures n > 0 ==> DigitOf(r[0]) != 0
  {
    if n < 10 then [DigitChar(n)] else DecimalText(n / 10) + [DigitChar(n % 10)]
  }

  /** Reading back a decimal numeral gives the number it was written from. */
  lemma {:induction false} ValueOfDecimalText(n: nat)
    ensures ValueOf(DecimalText(n), 10) == n
  {
    if n >= 10 {
      var r := DecimalText(n);
      assert r[..|r| - 1] == DecimalText(n / 10);
      ValueOfDecimalText(n / 10);
    }
  }

  /** A run of digits followed by a non-digit is read up to the non-digit. */
  lemma {:induction false} LeadingDigitsStop(ds: string, rest: string, radix: nat)
    requires forall i :: 0 <= i < |ds| ==> DigitOf(ds[i]) < radix
    requires rest == [] || DigitOf(rest[0]) >= radix
    ensures LeadingDigits(ds + rest, radix) == ds
    decreases |ds|
  {
    if |ds| == 0 {
      assert ds + rest == rest;
    } else {
      assert (ds + rest)[1..] == ds[1..] + rest;
      LeadingDigitsStop(ds[1..], rest, radix);
    }
  }

  /** A text that is not a digit run, whitespace or sign parses to NaN:
      `parseInt("undefined")` is the case the source meets. */
  lemma ParseIntNoDigits(s: string)
    requires |s| > 0 && !IsWhitespace(s[0]) && s[0] != '+' && s[0] != '-' && DigitOf(s[0]) >= 10
    ensures ParseInt(s) == NaN
  {
    assert TrimStart(s) == s;
  }

  /** `parseInt(String(n) + rest)` is `n` when `rest` does not continue the
      numeral (and does not turn a lone `0` into a `0x` prefix). */
  lemma ParseIntOfDecimal(n: nat, rest: string)
    requires rest == [] || (DigitOf(rest[0]) >= 10 && rest[0] != 'x' && rest[0] != 'X')
    ensures ParseInt(DecimalText(n) + rest) == Int(n)
  {
    var s := DecimalText(n) + rest;
    assert s[0] == DecimalText(n)[0];
    DigitIsPlain(s[0]);
    TrimStartKeeps(s);
    MagnitudeOfDecimal(n, rest);
  }

  /** `parseInt("-" + String(n))` is `-n`; for `n == 0` that is JavaScript's
      `-0`, which compares as `0`. */
  lemma ParseIntOfNegative(n: nat)
    ensures ParseInt("-" + DecimalText(n)) == Int(-(n as int))
  {
    var s := "-" + DecimalText(n);
    TrimStartKeeps(s);
    assert s[1..] == DecimalText(n) + [];
    MagnitudeOfDecimal(n, []);
  }

  /** A decimal numeral holds none of the separators the address parsers
      split on. */
  lemma DecimalTextPlain(n: nat)
    ensures ' ' !in DecimalText(n) && ':' !in DecimalText(n) && '/' !in DecimalText(n)
  {
    var d := DecimalText(n);
    forall i | 0 <= i < |d| ensures d[i] != ' ' && d[i] != ':' && d[i] != '/' {
      assert DigitOf(d[i]) < 10;
    }
  }

  /** `parseInt` of a decimal numeral is its value. */
  lemma ParseIntOfDecimalText(n: nat)
    ensures ParseInt(DecimalText(n)) == Int(n)
  {
    ParseIntOfDecimal(n, []);
    assert DecimalText(n) + [] == DecimalText(n);
  }
}

=== FILE: js_string.dfy ===
/**
  The JavaScript string primitives the node's handlers are built from:
  `String.prototype.trim`, `startsWith`, `split` with a string separator,
  `Array.prototype.join`, and the `undefined` that array destructuring
  yields past the end of an array.

  Strings are sequences of Unicode scalar values; the whitespace set is the
  one ECMAScript's `trim` removes (WhiteSpace and LineTerminator).
*/
module JsString {

  /** A JavaScript value that may be `undefined`, as produced by reading
      `xs[i]` past the end of an array. */
  datatype Undefinable<+T> = Undefined | Defined(value: T)

  /** `xs[i]` in JavaScript. */
  function At<T>(xs: seq<T>, i: nat): Undefinable<T> {
    if i < |xs| then Defined(xs[i]) else Undefined
  }

  /** `String(v)` for a string-or-undefined value. */
  function ToStr(v: Undefinable<string>): string {
    match v
    case Undefined => "undefined"
    case Defined(s) => s
  }

  /** The characters `trim` removes: ECMAScript WhiteSpace (tab, vertical
      tab, form feed, space, no-break space, byte order mark and the Unicode
      space separators) and LineTerminator (line feed, carriage return, line
      and paragraph separators). */
  predicate IsWhitespace(c: char) {
    || c == '\t' || c == '\n' || c == '\U{000B}' || c == '\U{000C}' || c == '\r'
    || c == ' ' || c == '\U{00A0}' || c == '\U{1680}' || ('\U{2000}' <= c <= '\U{200A}')
    || c == '\U{2028}' || c == '\U{2029}' || c == '\U{202F}' || c == '\U{205F}'
    || c == '\U{3000}' || c == '\U{FEFF}'
  }

  /** Neither end of `s` is whitespace, so `trim` leaves it alone. */
  predicate Trimmed(s: string) {
    s == [] || (!IsWhitespace(s[0]) && !IsWhitespace(s[|s| - 1]))
  }

  /** `trimStart`: `s` without its leading whitespace. */
  function TrimStart(s: string): string {
    if |s| > 0 && IsWhitespace(s[0]) then TrimStart(s[1..]) else s
  }

  /** `trimStart` returns the suffix of `s` after its leading whitespace:
      everything before it is whitespace and it does not start with any. */
  lemma {:induction false} TrimStartCuts(s: string)
    ensures |TrimStart(s)| <= |s| && TrimStart(s) == s[|s| - |TrimStart(s)|..]
    ensures forall i :: 0 <= i < |s| - |TrimStart(s)| ==> IsWhitespace(s[i])
    ensures TrimStart(s) == [] || !IsWhitespace(TrimStart(s)[0])
    decreases |s|
  {
    if |s| > 0 && IsWhitespace(s[0]) {
      var t := s[1..];
      TrimStartCuts(t);
      var r := TrimStart(t);
      assert TrimStart(s) == r;
      assert t[|t| - |r|..] == s[|s| - |r|..];
      forall i | 0 < i < |s| - |r| ensures IsWhitespace(s[i]) {
        assert t[i - 1] == s[i];
      }
    }
  }

  lemma TrimStartKeeps(s: string)
    requires |s| > 0 && !IsWhitespace(s[0])
    ensures TrimStart(s) == s
  {
  }

  /** `trimEnd`: `s` without its trailing whitespace. */
  function TrimEnd(s: string): string {
    if |s| > 0 && IsWhitespace(s[|s| - 1]) then TrimEnd(s[..|s| - 1]) else s
  }

  /** `trimEnd` returns the prefix of `s` before its trailing whitespace:
      everything after it is whitespace and it does not end with any. */
  lemma {:induction false} TrimEndCuts(s: string)
    ensures |TrimEnd(s)| <= |s| && TrimEnd(s) == s[..|TrimEnd(s)|]
    ensures forall i :: |TrimEnd(s)| <= i < |s| ==> IsWhitespace(s[i])
    ensures TrimEnd(s) == [] || !IsWhitespace(TrimEnd(s)[|TrimEnd(s)| - 1])
    decreases |s|
  {
    if |s| > 0 && IsWhitespace(s[|s| - 1]) {
      var t := s[..|s| - 1];
      TrimEndCuts(t);
      var r := TrimEnd(t);
      assert TrimEnd(s) == r;
      assert t[..|r|] == s[..|r|];
      forall i | |r| <= i < |s| - 1 ensures IsWhitespace(s[i]) {
        assert t[i] == s[i];
      }
    }
  }

  lemma TrimEndKeeps(s: string)
    requires |s| > 0 && !IsWhitespace(s[|s| - 1])
    ensures TrimEnd(s) == s
  {
  }

  /** `trim`: `s` without its leading and trailing whitespace. */
  function Trim(s: string): string {
    TrimEnd(TrimStart(s))
  }

  /** What `trim` returns is the slice of `s` left once the whitespace at
      both ends is cut off, and neither of its ends is whitespace. */
  lemma TrimCutsWhitespace(s: string)
    ensures Trimmed(Trim(s))
    ensures |Trim(s)| <= |TrimStart(s)| <= |s|
    ensures Trim(s) == s[|s| - |TrimStart(s)|..|s| - |TrimStart(s)| + |Trim(s)|]
    ensures forall i :: 0 <= i < |s| - |TrimStart(s)| ==> IsWhitespace(s[i])
    ensures forall i :: |s| - |TrimStart(s)| + |Trim(s)| <= i < |s| ==> IsWhitespace(s[i])
  {
    var t := TrimStart(s);
    var r := TrimEnd(t);
    var lead := |s| - |t|;
    TrimStartCuts(s);
    TrimEndCuts(t);
    assert r == Trim(s);
    TrimmedEnds(t, r);
    SliceOfSuffix(s, lead, |r|);
    WhitespaceAfterSuffix(s, lead, |r|);
  }

  /** A prefix of a string that does not start with whitespace, itself not
      ending with whitespace, is trimmed. */
  lemma TrimmedEnds(t: string, r: string)
    requires t == [] || !IsWhitespace(t[0])
    requires |r| <= |t| && r == t[..|r|]
    requires r == [] || !IsWhitespace(r[|r| - 1])
    ensures Trimmed(r)
  {
    if r != [] {
      assert r[0] == t[0];
    }
  }

  lemma SliceOfSuffix<T>(s: seq<T>, lead: nat, n: nat)
    requires lead + n <= |s|
    ensures s[lead..][..n] == s[lead..lead + n]
  {
  }

  lemma WhitespaceAfterSuffix(s: string, lead: nat, n: nat)
    requires lead + n <= |s|
    requires forall i :: n <= i < |s| - lead ==> IsWhitespace(s[lead..][i])
    ensures forall i :: lead + n <= i < |s| ==> IsWhitespace(s[i])
  {
    forall i | lead + n <= i < |s| ensures IsWhitespace(s[i]) {
      assert s[i] == s[lead..][i - lead];
    }
  }

  /** Trimming a string whose ends are not whitespace changes nothing. */
  lemma TrimOfTrimmed(s: string)
    requires Trimmed(s)
    ensures Trim(s) == s
  {
    if s != [] {
      TrimStartKeeps(s);
      TrimEndKeeps(s);
      calc {
        Trim(s);
        TrimEnd(TrimStart(s));
        TrimEnd(s);
        s;
      }
    } else {
      assert TrimStart(s) == s;
      assert TrimEnd(s) == s;
    }
  }

  /** Whitespace appended to a string is exactly what `trimEnd` takes off again. */
  lemma {:induction false} TrimEndAfterWhitespace(s: string, w: string)
    requires forall i :: 0 <= i < |w| ==> IsWhitespace(w[i])
    ensures TrimEnd(s + w) == TrimEnd(s)
    decreases |w|
  {
    if |w| > 0 {
      var s' := s + w;
      assert s'[..|s'| - 1] == s + w[..|w| - 1];
      TrimEndAfterWhitespace(s, w[..|w| - 1]);
    } else {
      assert s + w == s;
    }
  }

  /** A line whose ends are not whitespace survives `trim` once the
      whitespace after it (its terminating newline, say) is gone. */
  lemma TrimBeforeWhitespace(s: string, w: string)
    requires Trimmed(s) && (s != [] || w == [])
    requires forall i :: 0 <= i < |w| ==> IsWhitespace(w[i])
    ensures Trim(s + w) == s
  {
    if s == [] {
      assert s + w == [];
    } else {
      assert (s + w)[0] == s[0];
      TrimStartKeeps(s + w);
      TrimEndAfterWhitespace(s, w);
      assert TrimEnd(s) == s;
    }
  }

  /** `trim(s + "\n") == s` for a line whose ends are not whitespace. */
  lemma TrimLine(s: string)
    requires Trimmed(s)
    ensures Trim(s + "\n") == s
  {
    if s == [] {
      assert TrimStart(s + "\n") == [];
    } else {
      TrimBeforeWhitespace(s, "\n");
    }
  }

  predicate StartsWith(s: string, prefix: string) {
    |prefix| <= |s| && s[..|prefix|] == prefix
  }

  lemma StartsWithConcat(prefix: string, rest: string)
    ensures StartsWith(prefix + rest, prefix)
  {
    assert (prefix + rest)[..|prefix|] == prefix;
  }

  /** A string cannot start with two prefixes that differ at a shared index. */
  lemma PrefixesDiffer(s: string, p: string, q: string, k: nat)
    requires StartsWith(s, p) && k < |p| && k < |q| && p[k] != q[k]
    ensures !StartsWith(s, q)
  {
    assert s[k] == p[k];
  }

  lemma FirstCharDiffers(s: string, p: string)
    requires |s| > 0 && |p| > 0 && s[0] != p[0]
    ensures !StartsWith(s, p)
  {
    if |p| <= |s| {
      assert s[..|p|][0] == s[0];
    }
  }

  /** `sep` occurs in `s` starting at index `i`. */
  predicate OccursAt(s: string, sep: string, i: nat) {
    i + |sep| <= |s| && s[i..i + |sep|] == sep
  }

  predicate Contains(s: string, sep: string) {
    exists i: nat | i <= |s| :: OccursAt(s, sep, i)
  }

  lemma OccursAtShift(s: string, sep: string, i: nat)
    requires |s| > 0
    ensures OccursAt(s[1..], sep, i) <==> OccursAt(s, sep, i + 1)
  {
    if i + |sep| <= |s[1..]| {
      assert s[1..][i..i + |sep|] == s[i + 1..i + 1 + |sep|];
    }
  }

  /** The leftmost occurrence of `sep` in `s`, as `indexOf` finds it. */
  function FirstOccurrence(s: string, sep: string): Undefinable<nat>
    requires |sep| > 0
    decreases |s|
  {
    if |s| < |sep| then Undefined
    else if s[..|sep|] == sep then Defined(0)
    else
      match FirstOccurrence(s[1..], sep)
      case Undefined => Undefined
      case Defined(i) => Defined(i + 1)
  }

  /** `FirstOccurrence` finds an occurrence with none before it, and finds
      nothing only when `sep` does not occur at all. */
  lemma {:induction false} FirstOccurrenceIsLeftmost(s: string, sep: string)
    requires |sep| > 0
    ensures var r := FirstOccurrence(s, sep);
      && (r.Defined? ==> OccursAt(s, sep, r.value))
      && (r.Defined? ==> forall j: nat :: j < r.value ==> !OccursAt(s, sep, j))
      && (r.Undefined? ==> !Contains(s, sep))
    decreases |s|
  {
    if |s| >= |sep| && s[..|sep|] != sep {
      var t := s[1..];
      FirstOccurrenceIsLeftmost(t, sep);
      assert !OccursAt(s, sep, 0);
      match FirstOccurrence(t, sep)
      case Undefined =>
        forall j: nat | j <= |s| ensures !OccursAt(s, sep, j) {
          if j > 0 {
            OccursAtShift(s, sep, j - 1);
          }
        }
      case Defined(i) =>
        OccursAtShift(s, sep, i);
        forall j: nat | j < i + 1 ensures !OccursAt(s, sep, j) {
          if j > 0 {
            OccursAtShift(s, sep, j - 1);
          }
        }
    }
  }

  /** `a.join(sep)`. */
  function Join(xs: seq<string>, sep: string): string {
    if |xs| == 0 then ""
    else if |xs| == 1 then xs[0]
    else xs[0] + sep + Join(xs[1..], sep)
  }

  lemma OccursInPrefix(s: string, sep: string, i: nat, j: nat)
    requires i <= |s| && OccursAt(s[..i], sep, j)
    ensures OccursAt(s, sep, j) && j + |sep| <= i
  {
    assert s[..i][j..j + |sep|] == s[j..j + |sep|];
  }

  /** `s.split(sep)` for a non-empty separator string: the pieces between
      the occurrences of `sep` found left to right. */
  function Split(s: string, sep: string): (r: seq<string>)
    requires |sep| > 0
    ensures |r| >= 1
    ensures Contains(s, sep) ==> |r| >= 2
    decreases |s|
  {
    FirstOccurrenceIsLeftmost(s, sep);
    match FirstOccurrence(s, sep)
    case Undefined => [s]
    case Defined(i) => [s[..i]] + Split(s[i + |sep|..], sep)
  }

  /** No piece of `s.split(sep)` holds `sep`, and joining the pieces with
      `sep` gives `s` back. */
  lemma {:induction false} SplitPieces(s: string, sep: string)
    requires |sep| > 0
    ensures forall k :: 0 <= k < |Split(s, sep)| ==> !Contains(Split(s, sep)[k], sep)
    ensures Join(Split(s, sep), sep) == s
    decreases |s|
  {
    FirstOccurrenceIsLeftmost(s, sep);
    match FirstOccurrence(s, sep)
    case Undefined =>
    case Defined(i) =>
      var piece := s[..i];
      var rest := s[i + |sep|..];
      assert !Contains(piece, sep) by {
        forall j: nat | OccursAt(piece, sep, j) ensures false {
          OccursInPrefix(s, sep, i, j);
        }
      }
      SplitPieces(rest, sep);
      var tail := Split(rest, sep);
      var r := Split(s, sep);
      assert r == [piece] + tail;
      forall k | 0 <= k < |r| ensures !Contains(r[k], sep) {
        if k > 0 {
          assert r[k] == tail[k - 1];
        }
      }
      calc {
        Join(r, sep);
        { assert r[1..] == tail; }
        piece + sep + Join(tail, sep);
        piece + sep + rest;
        { assert s == s[..i] + s[i..i + |sep|] + s[i + |sep|..]; }
        s;
      }
  }

  /** A string that starts with a prefix ending in a space has at least two
      space-separated pieces, so `split(' ')[1]` is defined. */
  lemma SplitAfterSpacePrefix(m: string, prefix: string)
    requires StartsWith(m, prefix) && |prefix| > 0 && prefix[|prefix| - 1] == ' '
    ensures |Split(m, " ")| >= 2
  {
    assert m[|prefix| - 1..|prefix|] == " ";
    assert OccursAt(m, " ", |prefix| - 1);
  }

  /** No proper suffix of `sep` starts with `sep`'s first character, so an
      occurrence of `sep` cannot straddle the end of a piece before it. */
  predicate FirstCharUnique(sep: string) {
    |sep| > 0 && forall k :: 1 <= k < |sep| ==> sep[k] != sep[0]
  }

  lemma SingleCharSeparator(c: char)
    ensures FirstCharUnique([c])
  {
  }

  /** For a one-character separator, containment is membership. */
  lemma ContainsChar(s: string, c: char)
    ensures Contains(s, [c]) <==> c in s
  {
    if c in s {
      var i :| 0 <= i < |s| && s[i] == c;
      assert s[i..i + 1] == [c];
      assert OccursAt(s, [c], i);
    }
    if Contains(s, [c]) {
      var i: nat :| i <= |s| && OccursAt(s, [c], i);
      assert s[i..i + 1][0] == s[i];
    }
  }

  /** An occurrence of `sep` cannot begin inside `a` and end inside the `sep`
      placed after it. */
  lemma NoStraddle(a: string, sep: string, b: string, j: nat)
    requires FirstCharUnique(sep) && j < |a| < j + |sep|
    ensures !OccursAt(a + sep + b, sep, j)
  {
    var s := a + sep + b;
    var k := |a| - j;
    assert s[j..j + |sep|][k] == s[|a|] == sep[0];
    assert sep[k] != sep[0];
  }

  /** The first occurrence of `sep` in `a + sep + b` is the one placed
      after `a`, when `a` holds none. */
  lemma FirstOccurrenceAfterPiece(a: string, sep: string, b: string)
    requires FirstCharUnique(sep) && !Contains(a, sep)
    ensures FirstOccurrence(a + sep + b, sep) == Defined(|a|)
  {
    var s := a + sep + b;
    assert s[|a|..|a| + |sep|] == sep;
    assert OccursAt(s, sep, |a|);
    forall j: nat | j < |a| ensures !OccursAt(s, sep, j) {
      if j + |sep| <= |a| {
        assert s[j..j + |sep|] == a[j..j + |sep|];
        assert !OccursAt(a, sep, j);
      } else {
        NoStraddle(a, sep, b, j);
      }
    }
    FirstOccurrenceIsLeftmost(s, sep);
    match FirstOccurrence(s, sep)
    case Undefined =>
      assert Contains(s, sep);
    case Defined(v) =>
  }

  /** `(a + sep + b).split(sep)` starts with `a` when `a` holds no `sep`. */
  lemma SplitAfterPiece(a: string, sep: string, b: string)
    requires FirstCharUnique(sep) && !Contains(a, sep)
    ensures Split(a + sep + b, sep) == [a] + Split(b, sep)
  {
    var s := a + sep + b;
    FirstOccurrenceAfterPiece(a, sep, b);
    assert s[..|a|] == a;
    assert s[|a| + |sep|..] == b;
  }

  /** A string free of `sep` splits into itself alone. */
  lemma SplitWithout(s: string, sep: string)
    requires |sep| > 0 && !Contains(s, sep)
    ensures Split(s, sep) == [s]
  {
    FirstOccurrenceIsLeftmost(s, sep);
  }

  /** A joined string ends with its last piece. */
  lemma {:induction false} JoinEndsWithLast(xs: seq<string>, sep: string)
    requires |xs| >= 1
    ensures var j := Join(xs, sep); var last := xs[|xs| - 1];
      |last| <= |j| && j[|j| - |last|..] == last
    decreases |xs|
  {
    if |xs| > 1 {
      JoinEndsWithLast(xs[1..], sep);
      var j := Join(xs, sep);
      var tail := Join(xs[1..], sep);
      assert j == xs[0] + sep + tail;
      assert j[|j| - |tail|..] == tail;
    }
  }

  /** `split` inverts `join` when no piece contains the separator. */
  lemma {:induction false} SplitJoin(xs: seq<string>, sep: string)
    requires FirstCharUnique(sep) && |xs| >= 1
    requires forall k :: 0 <= k < |xs| ==> !Contains(xs[k], sep)
    ensures Split(Join(xs, sep), sep) == xs
    decreases |xs|
  {
    if |xs| == 1 {
      SplitWithout(xs[0], sep);
    } else {
      SplitAfterPiece(xs[0], sep, Join(xs[1..], sep));
      SplitJoin(xs[1..], sep);
    }
  }

  /** `(a + [c] + b).split(c)` with `a` free of `c` starts with `a`. */
  lemma SplitOnChar(a: string, c: char, b: string)
    requires c !in a
    ensures Split(a + [c] + b, [c]) == [a] + Split(b, [c])
  {
    SingleCharSeparator(c);
    ContainsChar(a, c);
    SplitAfterPiece(a, [c], b);
  }

  lemma SplitFreeOfChar(s: string, c: char)
    requires c !in s
    ensures Split(s, [c]) == [s]
  {
    ContainsChar(s, c);
    SplitWithout(s, [c]);
  }

  // ----- the first two pieces of a split on one character -----

  /** The text before the first `c` in `s`, or all of `s` when it holds no `c`. */
  function Before(s: string, c: char): string {
    if s == [] || s[0] == c then [] else [s[0]] + Before(s[1..], c)
  }

  /** The text after the first `c` in `s`; `undefined` when `s` holds no `c`. */
  function After(s: string, c: char): Undefinable<string> {
    if s == [] then Undefined
    else if s[0] == c then Defined(s[1..])
    else After(s[1..], c)
  }

  /** The text between the first and the second `c` in `s` (or after the
      first `c` when there is no second); `undefined` when there is no `c`. */
  function SecondPiece(s: string, c: char): Undefinable<string> {
    match After(s, c)
    case Undefined => Undefined
    case Defined(t) => Defined(Before(t, c))
  }

  /** `s` is its text before the first `c`, then `c`, then the text after. */
  lemma {:induction false} BeforeAfter(s: string, c: char)
    ensures c !in Before(s, c)
    ensures After(s, c).Undefined? <==> c !in s
    ensures After(s, c).Undefined? ==> Before(s, c) == s
    ensures After(s, c).Defined? ==> s == Before(s, c) + [c] + After(s, c).value
  {
    if s != [] && s[0] != c {
      BeforeAfter(s[1..], c);
      assert s == [s[0]] + s[1..];
    }
  }

  /** The first two pieces of `s.split(c)` are the text before the first
      `c` and the text between the first and the second `c`. */
  lemma {:induction false} SplitFirstTwo(s: string, c: char)
    ensures Split(s, [c])[0] == Before(s, c)
    ensures At(Split(s, [c]), 1) == SecondPiece(s, c)
    decreases |s|
  {
    BeforeAfter(s, c);
    match After(s, c)
    case Undefined =>
      SplitFreeOfChar(s, c);
    case Defined(rest) =>
      SplitOnChar(Before(s, c), c, rest);
      SplitFirstTwo(rest, c);
  }

  /** Cutting `x + y` at the first `c`, when `x` holds none and `y` is
      empty or starts with `c`, leaves `x` before it. */
  lemma {:induction false} BeforeStop(x: string, c: char, y: string)
    requires c !in x && (y == [] || y[0] == c)
    ensures Before(x + y, c) == x
    ensures y == [] ==> After(x + y, c) == Undefined
    ensures y != [] ==> After(x + y, c) == Defined(y[1..])
  {
    if y == [] {
      assert x + y == x;
      BeforeAfter(x, c);
    } else {
      assert x + y == x + [c] + y[1..];
      BeforeConcat(x, c, y[1..]);
    }
  }

  lemma {:induction false} BeforeConcat(x: string, c: char, y: string)
    requires c !in x
    ensures Before(x + [c] + y, c) == x
    ensures After(x + [c] + y, c) == Defined(y)
  {
    if x != [] {
      assert (x + [c] + y)[1..] == x[1..] + [c] + y;
      BeforeConcat(x[1..], c, y);
    }
  }
}

=== FILE: mirror.dfy ===
/**
  The file-mirroring node of `src/index.ts`, one handler invocation at a
  time. A node is its peer registry (the module-level `peers` map, shared
  by accepted and dialled sockets) and its data directory, abstracted to a
  map from file name to contents. Each handler takes the node and the
  event and returns the node afterwards together with the lines it wrote,
  in order.

  Every `data` event is handled as one whole message: the chunk is trimmed,
  dispatched on its prefix and split on single spaces.
*/
module Mirror {
  import opened JsString
  import opened JsNumber
  import opened Sockets
  import Registry

  type Bytes = seq<bv8>

  /** The data directory: file name (as used in `path.join(DATA_DIR, name)`) to contents. */
  type Dir = map<string, Bytes>

  datatype Node = Node(peers: Peers, dir: Dir)

  /** A handler's effect: the node afterwards and the lines written, in order. */
  datatype Step = Step(node: Node, out: seq<Write>)

  /** What the handlers read from outside the model: the identity made once
      at startup, the order in which `readdirSync` lists a directory, and
      Node's base64 codec (`toString('base64')` and `Buffer.from(_, 'base64')`). */
  datatype Env = Env(
    identity: string,
    readdir: Dir -> seq<string>,
    toBase64: Bytes -> string,
    fromBase64: string -> Bytes)

  // ----- the lines the node writes -----

  function ConnectLine(identity: string): string {
    "CONNECT " + identity + "\n"
  }

  function ConnectedLine(identity: string): string {
    "CONNECTED " + identity + "\n"
  }

  function FileListLine(names: seq<string>): string {
    "FILELIST " + Join(names, " ") + "\n"
  }

  function RequestFileLine(name: string): string {
    "REQUESTFILE " + name + "\n"
  }

  function DataLine(name: string, token: string): string {
    "DATA " + name + " " + token + "\n"
  }

  /** `sendFileList`: the directory's names, in `readdirSync` order, on one line. */
  function SendFileList(sock: Socket, dir: Dir, env: Env): seq<Write> {
    [Write(sock, FileListLine(env.readdir(dir)))]
  }

  /** `sendFile`: one DATA line when the file exists, nothing otherwise. */
  function SendFile(sock: Socket, dir: Dir, name: string, env: Env): (out: seq<Write>)
    ensures |out| <= 1
    ensures name in dir <==> |out| == 1
    ensures name in dir ==> out[0] == Write(sock, DataLine(name, env.toBase64(dir[name])))
  {
    if name in dir then [Write(sock, DataLine(name, env.toBase64(dir[name])))] else []
  }

  /** `files.forEach(file => requestFile(socket, file))`. */
  function RequestFiles(sock: Socket, names: seq<string>): (out: seq<Write>)
    ensures |out| == |names|
    ensures forall i :: 0 <= i < |names| ==> out[i] == Write(sock, RequestFileLine(names[i]))
  {
    if |names| == 0 then [] else [Write(sock, RequestFileLine(names[0]))] + RequestFiles(sock, names[1..])
  }

  // ----- decoding a trimmed chunk -----

  datatype Command =
    | Connect(peer: string)
    | Connected
    | FileList(names: seq<string>)
    | Data(name: string, token: string)
    | RequestFile(name: string)
    | Ignored

  /** The FILELIST, DATA and REQUESTFILE branches, identical in the server's
      and the client's dispatcher. */
  function ParseTransfer(m: string): Command {
    if StartsWith(m, "FILELIST ") then
      FileList(Split(m, " ")[1..])
    else if StartsWith(m, "DATA ") then
      SplitAfterSpacePrefix(m, "DATA ");
      var parts := Split(m, " ");
      Data(parts[1], Join(parts[2..], " "))
    else if StartsWith(m, "REQUESTFILE ") then
      SplitAfterSpacePrefix(m, "REQUESTFILE ");
      RequestFile(Trim(Split(m, " ")[1]))
    else
      Ignored
  }

  /** The accepted socket's dispatcher: `CONNECT ` first, then the transfers. */
  function ParseServer(m: string): Command {
    if StartsWith(m, "CONNECT ") then
      SplitAfterSpacePrefix(m, "CONNECT ");
      Connect(Trim(Split(m, " ")[1]))
    else
      ParseTransfer(m)
  }

  /** The dialled socket's dispatcher: `CONNECTED ` first, then the transfers. */
  function ParseClient(m: string): Command {
    if StartsWith(m, "CONNECTED ") then Connected else ParseTransfer(m)
  }

  // ----- the handlers -----

  /** A transfer command received on `sock`. DATA overwrites the named
      file with the decoded payload; the others only write. */
  function Transfer(node: Node, sock: Socket, cmd: Command, env: Env): Step {
    match cmd
    case FileList(names) => Step(node, RequestFiles(sock, names))
    case Data(name, token) => Step(node.(dir := node.dir[name := env.fromBase64(token)]), [])
    case RequestFile(name) => Step(node, SendFile(sock, node.dir, name, env))
    case _ => Step(node, [])
  }

  /** `socket.on('data')` of an accepted socket. */
  function ServerData(node: Node, sock: Socket, chunk: string, env: Env): Step {
    match ParseServer(Trim(chunk))
    case Connect(peer) =>
      Step(node.(peers := Registry.Set(node.peers, Defined(peer), sock)),
           [Write(sock, ConnectedLine(env.identity))] + SendFileList(sock, node.dir, env))
    case cmd => Transfer(node, sock, cmd, env)
  }

  /** `socket.on('end')` of an accepted socket: the first registry entry
      holding this socket is deleted and the walk stops there. */
  function ServerEnd(node: Node, sock: Socket): Node {
    node.(peers := Registry.RemoveFirstWithValue(node.peers, sock))
  }

  /** `client.on('data')` of a socket dialled for peer key `peer`. */
  function ClientData(node: Node, client: Socket, peer: Key, chunk: string, env: Env): Step {
    match ParseClient(Trim(chunk))
    case Connected =>
      Step(node.(peers := Registry.Set(node.peers, peer, client)), SendFileList(client, node.dir, env))
    case cmd => Transfer(node, client, cmd, env)
  }

  /** `client.on('end')`: delete whatever is registered under the dialled key. */
  function ClientEnd(node: Node, peer: Key): Node {
    node.(peers := Registry.Delete(node.peers, peer))
  }

  /** The dialled socket's `connect` callback announces the local identity. */
  function ClientConnected(client: Socket, env: Env): seq<Write> {
    [Write(client, ConnectLine(env.identity))]
  }

  // ----- the console command -----

  /** The outcome of one console line: not a `connect` command, a
      `TypeError` thrown because the address has no `:`, or a dial of
      `host` on `parseInt(port)` for the peer key after the `/`. */
  datatype ConsoleCommand =
    | NotConnect
    | TypeError
    | Dial(host: string, port: Number, peer: Key)

  /** `rl.on('line')`: a `connect ` line dials the address that is its
      second space-separated token. */
  function ParseConsoleLine(input: string): ConsoleCommand {
    if !StartsWith(input, "connect ") then NotConnect
    else
      SplitAfterSpacePrefix(input, "connect ");
      ParseAddress(Split(input, " ")[1])
  }

  /** `host:port/id`: split on `:`, then the part after the first `:` on
      `/`; reading `.split` of the missing part throws. */
  function ParseAddress(address: string): ConsoleCommand {
    var hostAndRest := Split(address, ":");
    match At(hostAndRest, 1)
    case Undefined => TypeError
    case Defined(portAndIdentity) =>
      var portAndPeer := Split(portAndIdentity, "/");
      Dial(hostAndRest[0], ParseInt(portAndPeer[0]), At(portAndPeer, 1))
  }

  // ----- the directory watcher -----

  /** The same line written once to every registered socket, in registry order. */
  function Fanout(peers: Peers, line: string): (out: seq<Write>)
    ensures |out| == |peers|
    ensures forall i :: 0 <= i < |peers| ==> out[i] == Write(peers[i].1, line)
  {
    if |peers| == 0 then [] else [Write(peers[0].1, line)] + Fanout(peers[1..], line)
  }

  /** `watcher.on('add')` and `watcher.on('change')`, which are the same
      handler. The event reports that the file `name` now holds `contents`
      on disk, so the directory takes it (whoever wrote it), and the handler
      sends what `readFileSync` returns as a DATA line to every registered
      socket. */
  function WatchEvent(node: Node, name: string, contents: Bytes, env: Env): Step {
    Step(node.(dir := node.dir[name := contents]), Fanout(node.peers, DataLine(name, env.toBase64(contents))))
  }
}

=== FILE: mirror_parse.dfy ===
/**
  How the dispatchers read back each line the node writes: the conditions
  under which a written line is parsed as the command it was built from.
*/
module MirrorParse {
  import opened JsString
  import opened Sockets
  import opened Mirror

  lemma NoSpaceIn(word: string)
    requires ' ' !in word
    ensures !Contains(word, " ")
  {
    ContainsChar(word, ' ');
  }

  /** `(word + " " + rest).split(' ')` is `word` followed by the pieces of `rest`. */
  lemma SplitWord(word: string, rest: string)
    requires ' ' !in word
    ensures Split(word + " " + rest, " ") == [word] + Split(rest, " ")
  {
    NoSpaceIn(word);
    SingleCharSeparator(' ');
    SplitAfterPiece(word, " ", rest);
  }

  /** A piece without spaces splits into itself alone. */
  lemma SplitSpaceless(s: string)
    requires ' ' !in s
    ensures Split(s, " ") == [s]
  {
    NoSpaceIn(s);
    SplitWithout(s, " ");
  }

  /** A message that does not start with `C` is a transfer to both dispatchers. */
  lemma TransferOnly(m: string)
    requires |m| > 0 && m[0] != 'C'
    ensures ParseServer(m) == ParseTransfer(m)
    ensures ParseClient(m) == ParseTransfer(m)
  {
    FirstCharDiffers(m, "CONNECT ");
    FirstCharDiffers(m, "CONNECTED ");
  }

  /** A message starting with `C` is no transfer. */
  lemma NoTransfer(m: string)
    requires |m| > 0 && m[0] == 'C'
    ensures ParseTransfer(m) == Ignored
  {
    FirstCharDiffers(m, "FILELIST ");
    FirstCharDiffers(m, "DATA ");
    FirstCharDiffers(m, "REQUESTFILE ");
  }

  lemma ConnectedIsNoConnect(m: string)
    requires StartsWith(m, "CONNECTED ")
    ensures ParseServer(m) == Ignored
  {
    PrefixesDiffer(m, "CONNECTED ", "CONNECT ", 7);
    NoTransfer(m);
  }

  lemma ConnectIsNoConnected(m: string)
    requires StartsWith(m, "CONNECT ")
    ensures ParseClient(m) == Ignored
  {
    PrefixesDiffer(m, "CONNECT ", "CONNECTED ", 7);
    NoTransfer(m);
  }

  /** The line a dialling node sends is read by the accepting node as a
      CONNECT of exactly the identity it carries, and ignored by a client. */
  lemma ConnectLineParses(id: string)
    requires id != [] && ' ' !in id && Trimmed(id)
    ensures ParseServer(Trim(ConnectLine(id))) == Connect(id)
    ensures ParseClient(Trim(ConnectLine(id))) == Ignored
  {
    var m := "CONNECT " + id;
    assert ConnectLine(id) == m + "\n";
    assert m == "CONNECT" + " " + id;
    assert Trimmed(m);
    TrimLine(m);
    StartsWithConcat("CONNECT ", id);
    SplitWord("CONNECT", id);
    SplitSpaceless(id);
    TrimOfTrimmed(id);
    ConnectIsNoConnected(m);
  }

  /** The accepting node's answer is read by the dialling node as CONNECTED
      and ignored by an accepting node. */
  lemma ConnectedLineParses(id: string)
    requires id != [] && Trimmed(id)
    ensures ParseClient(Trim(ConnectedLine(id))) == Connected
    ensures ParseServer(Trim(ConnectedLine(id))) == Ignored
  {
    var m := "CONNECTED " + id;
    assert ConnectedLine(id) == m + "\n";
    assert Trimmed(m);
    TrimLine(m);
    StartsWithConcat("CONNECTED ", id);
    ConnectedIsNoConnect(m);
  }

  /** The names a FILELIST line is read back as: none holds a space, and
      the last is non-empty and does not end in whitespace, so `trim` takes
      only the newline. */
  predicate ListableNames(names: seq<string>) {
    && |names| >= 1
    && (forall i :: 0 <= i < |names| ==> ' ' !in names[i])
    && names[|names| - 1] != []
    && !IsWhitespace(names[|names| - 1][|names[|names| - 1]| - 1])
  }

  lemma TrimFileListLine(names: seq<string>)
    requires ListableNames(names)
    ensures Trim(FileListLine(names)) == "FILELIST " + Join(names, " ")
  {
    var joined := Join(names, " ");
    var m := "FILELIST " + joined;
    assert FileListLine(names) == m + "\n";
    JoinEndsWithLast(names, " ");
    var last := names[|names| - 1];
    assert m[|m| - 1] == joined[|joined| - 1] == last[|last| - 1];
    assert Trimmed(m);
    TrimLine(m);
  }

  /** A FILELIST line is read back, by either dispatcher, as the names it
      was built from, in their order. */
  lemma FileListLineParses(names: seq<string>)
    requires ListableNames(names)
    ensures ParseServer(Trim(FileListLine(names))) == FileList(names)
    ensures ParseClient(Trim(FileListLine(names))) == FileList(names)
  {
    var joined := Join(names, " ");
    var m := "FILELIST " + joined;
    TrimFileListLine(names);
    assert m == "FILELIST" + " " + joined;
    SplitWord("FILELIST", joined);
    forall i | 0 <= i < |names| ensures !Contains(names[i], " ") {
      NoSpaceIn(names[i]);
    }
    SingleCharSeparator(' ');
    SplitJoin(names, " ");
    StartsWithConcat("FILELIST ", joined);
    TransferOnly(m);
  }

  /** An empty directory is announced as `FILELIST \n`, which trims to
      `FILELIST`, matches no prefix, and is ignored. */
  lemma EmptyFileListIgnored()
    ensures Trim(FileListLine([])) == "FILELIST"
    ensures ParseServer(Trim(FileListLine([]))) == Ignored
    ensures ParseClient(Trim(FileListLine([]))) == Ignored
  {
    assert FileListLine([]) == "FILELIST" + " \n";
    TrimBeforeWhitespace("FILELIST", " \n");
    var m := "FILELIST";
    FirstCharDiffers(m, "CONNECT ");
    FirstCharDiffers(m, "CONNECTED ");
    FirstCharDiffers(m, "DATA ");
    FirstCharDiffers(m, "REQUESTFILE ");
  }

  /** When a DATA line reads back as the name and payload token it was
      built from: the name holds no space, and the line does not end in
      whitespace before its newline — a non-empty token must not, and with
      an empty token the name must be non-empty and not end in it. */
  predicate DataRoundTrips(name: string, token: string) {
    && ' ' !in name
    && (token != [] ==> !IsWhitespace(token[|token| - 1]))
    && (token == [] ==> name != [] && !IsWhitespace(name[|name| - 1]))
  }

  lemma TrimDataLine(name: string, token: string)
    requires token != [] && !IsWhitespace(token[|token| - 1])
    ensures Trim(DataLine(name, token)) == "DATA " + name + " " + token
  {
    var m := "DATA " + name + " " + token;
    assert DataLine(name, token) == m + "\n";
    assert m[|m| - 1] == token[|token| - 1];
    TrimLine(m);
  }

  lemma SplitDataLine(name: string, token: string)
    requires ' ' !in name
    ensures Split("DATA " + name + " " + token, " ") == ["DATA", name] + Split(token, " ")
  {
    assert "DATA " + name + " " + token == "DATA" + " " + (name + " " + token);
    SplitWord("DATA", name + " " + token);
    SplitWord(name, token);
  }

  /** What the DATA branch reads out of a message starting with `DATA `. */
  lemma DataBranch(m: string, name: string, rest: seq<string>)
    requires StartsWith(m, "DATA ") && Split(m, " ") == ["DATA", name] + rest
    ensures ParseTransfer(m) == Data(name, Join(rest, " "))
  {
    FirstCharDiffers(m, "FILELIST ");
    assert (["DATA", name] + rest)[2..] == rest;
  }

  /** The trimmed DATA message, before trimming is taken into account. */
  lemma DataMessageParses(name: string, token: string)
    requires ' ' !in name
    ensures ParseTransfer("DATA " + name + " " + token) == Data(name, token)
  {
    var m := "DATA " + name + " " + token;
    SplitDataLine(name, token);
    assert m == "DATA " + (name + " " + token);
    StartsWithConcat("DATA ", name + " " + token);
    DataBranch(m, name, Split(token, " "));
    JoinOfSplit(token);
  }

  lemma JoinOfSplit(token: string)
    ensures Join(Split(token, " "), " ") == token
  {
    SplitPieces(token, " ");
  }

  lemma DataLineWithToken(name: string, token: string)
    requires ' ' !in name && token != [] && !IsWhitespace(token[|token| - 1])
    ensures ParseTransfer(Trim(DataLine(name, token))) == Data(name, token)
    ensures Trim(DataLine(name, token))[0] == 'D'
  {
    var m := "DATA " + name + " " + token;
    TrimDataLine(name, token);
    DataMessageParses(name, token);
    assert m[0] == 'D';
  }

  lemma TrimEmptyDataLine(name: string)
    requires name != [] && !IsWhitespace(name[|name| - 1])
    ensures Trim(DataLine(name, "")) == "DATA " + name
  {
    var m := "DATA " + name;
    assert DataLine(name, "") == m + " \n";
    assert m[|m| - 1] == name[|name| - 1];
    TrimBeforeWhitespace(m, " \n");
  }

  lemma DataLineWithoutToken(name: string)
    requires ' ' !in name && name != [] && !IsWhitespace(name[|name| - 1])
    ensures ParseTransfer(Trim(DataLine(name, ""))) == Data(name, "")
    ensures Trim(DataLine(name, ""))[0] == 'D'
  {
    var m := "DATA " + name;
    TrimEmptyDataLine(name);
    assert m == "DATA" + " " + name;
    SplitWord("DATA", name);
    SplitSpaceless(name);
    StartsWithConcat("DATA ", name);
    DataBranch(m, name, []);
    assert m[0] == 'D';
  }

  /** A DATA line, as `sendFile` and the watcher write it, is read back by
      either dispatcher as the same name and token; an empty token (an
      empty file) comes back as the empty token. */
  lemma DataLineParses(name: string, token: string)
    requires DataRoundTrips(name, token)
    ensures ParseServer(Trim(DataLine(name, token))) == Data(name, token)
    ensures ParseClient(Trim(DataLine(name, token))) == Data(name, token)
  {
    if token == [] {
      DataLineWithoutToken(name);
    } else {
      DataLineWithToken(name, token);
    }
    TransferOnly(Trim(DataLine(name, token)));
  }

  /** What the receiver gets from `sendFile`: for a file in the directory,
      one line on the socket that either side reads as DATA of that name
      and the file's base64 text; for any other name, no line at all. */
  lemma SendFileLineParses(sock: Socket, dir: Dir, name: string, env: Env)
    requires name in dir ==> DataRoundTrips(name, env.toBase64(dir[name]))
    ensures name !in dir ==> SendFile(sock, dir, name, env) == []
    ensures name in dir ==>
      var out := SendFile(sock, dir, name, env);
      && |out| == 1 && out[0].to == sock
      && ParseServer(Trim(out[0].line)) == Data(name, env.toBase64(dir[name]))
      && ParseClient(Trim(out[0].line)) == Data(name, env.toBase64(dir[name]))
  {
    if name in dir {
      DataLineParses(name, env.toBase64(dir[name]));
    }
  }

  /** A REQUESTFILE line is read back by either dispatcher as a request
      for the same name. */
  lemma RequestFileLineParses(name: string)
    requires name != [] && ' ' !in name && Trimmed(name)
    ensures ParseServer(Trim(RequestFileLine(name))) == RequestFile(name)
    ensures ParseClient(Trim(RequestFileLine(name))) == RequestFile(name)
  {
    var m := "REQUESTFILE " + name;
    assert RequestFileLine(name) == m + "\n";
    assert Trimmed(m);
    TrimLine(m);
    assert m == "REQUESTFILE" + " " + name;
    SplitWord("REQUESTFILE", name);
    SplitSpaceless(name);
    assert Split(m, " ") == ["REQUESTFILE", name];
    TrimOfTrimmed(name);
    StartsWithConcat("REQUESTFILE ", name);
    FirstCharDiffers(m, "FILELIST ");
    FirstCharDiffers(m, "DATA ");
    assert ParseTransfer(m) == RequestFile(name);
    TransferOnly(m);
  }
}

=== FILE: mirror_proofs.dfy ===
/**
  What each handler of the file-mirroring node does with the lines other
  nodes write: registrations on connect, requests for listed files, stored
  payloads, answered requests, removals on disconnect, the watcher's
  fan-out, and two exchanges between a dialling and an accepting node.
*/
module MirrorProofs {
  import opened JsString
  import opened Sockets
  import opened Mirror
  import opened MirrorParse
  import Registry

  // ----- registration -----

  /** A `CONNECT ` message maps its second space-separated token (trimmed)
      to the socket, replacing any earlier socket under that key and keeping
      every other key, leaves the directory alone, and answers with
      `CONNECTED <identity>` and then the FILELIST line. */
  lemma ServerConnect(node: Node, sock: Socket, chunk: string, env: Env)
    requires StartsWith(Trim(chunk), "CONNECT ")
    ensures |Split(Trim(chunk), " ")| >= 2
    ensures var key := Defined(Trim(Split(Trim(chunk), " ")[1]));
      var r := ServerData(node, sock, chunk, env);
      && Registry.ToMap(r.node.peers) == Registry.ToMap(node.peers)[key := sock]
      && r.node.dir == node.dir
      && r.out == [Write(sock, ConnectedLine(env.identity)), Write(sock, FileListLine(env.readdir(node.dir)))]
  {
    var m := Trim(chunk);
    SplitAfterSpacePrefix(m, "CONNECT ");
    var key := Trim(Split(m, " ")[1]);
    assert ParseServer(m) == Connect(key);
    assert ServerData(node, sock, chunk, env)
      == Step(node.(peers := Registry.Set(node.peers, Defined(key), sock)),
              [Write(sock, ConnectedLine(env.identity))] + SendFileList(sock, node.dir, env));
  }

  /** The line a dialling node sends registers it under its own identity. */
  lemma ConnectLineRegisters(node: Node, sock: Socket, id: string, env: Env)
    requires id != [] && ' ' !in id && Trimmed(id)
    ensures var r := ServerData(node, sock, ConnectLine(id), env);
      && Registry.ToMap(r.node.peers) == Registry.ToMap(node.peers)[Defined(id) := sock]
      && r.node.peers == Registry.Set(node.peers, Defined(id), sock)
      && r.node.dir == node.dir
      && r.out == [Write(sock, ConnectedLine(env.identity)), Write(sock, FileListLine(env.readdir(node.dir)))]
  {
    ConnectLineParses(id);
  }

  /** The accepting node's answer registers the dialled socket under the
      key typed in the `connect` command and sends the file list back. */
  lemma ConnectedLineRegisters(node: Node, client: Socket, peer: Key, id: string, env: Env)
    requires id != [] && Trimmed(id)
    ensures var r := ClientData(node, client, peer, ConnectedLine(id), env);
      && Registry.ToMap(r.node.peers) == Registry.ToMap(node.peers)[peer := client]
      && r.node.dir == node.dir
      && r.out == [Write(client, FileListLine(env.readdir(node.dir)))]
  {
    ConnectedLineParses(id);
  }

  /** The accepting side ignores `CONNECTED ` messages and every message
      without a known prefix: nothing changes and nothing is written. */
  lemma ServerIgnores(node: Node, sock: Socket, chunk: string, env: Env)
    requires var m := Trim(chunk);
      || StartsWith(m, "CONNECTED ")
      || (!StartsWith(m, "CONNECT ") && !StartsWith(m, "FILELIST ")
          && !StartsWith(m, "DATA ") && !StartsWith(m, "REQUESTFILE "))
    ensures ServerData(node, sock, chunk, env) == Step(node, [])
  {
    var m := Trim(chunk);
    if StartsWith(m, "CONNECTED ") {
      ConnectedIsNoConnect(m);
    } else {
      assert ParseTransfer(m) == Ignored;
    }
    assert ParseServer(m) == Ignored;
    assert ServerData(node, sock, chunk, env) == Transfer(node, sock, Ignored, env);
  }

  /** The dialling side ignores `CONNECT ` messages and every message
      without a known prefix. */
  lemma ClientIgnores(node: Node, client: Socket, peer: Key, chunk: string, env: Env)
    requires var m := Trim(chunk);
      || StartsWith(m, "CONNECT ")
      || (!StartsWith(m, "CONNECTED ") && !StartsWith(m, "FILELIST ")
          && !StartsWith(m, "DATA ") && !StartsWith(m, "REQUESTFILE "))
    ensures ClientData(node, client, peer, chunk, env) == Step(node, [])
  {
    var m := Trim(chunk);
    if StartsWith(m, "CONNECT ") {
      ConnectIsNoConnected(m);
    } else {
      assert ParseTransfer(m) == Ignored;
    }
    assert ParseClient(m) == Ignored;
    assert ClientData(node, client, peer, chunk, env) == Transfer(node, client, Ignored, env);
  }

  // ----- transfers -----

  /** `FILELIST n1 … nk` makes the reader, on either side, write exactly k
      REQUESTFILE lines on the same socket, one per name in list order,
      whether or not it already has the file. */
  lemma FileListRequestsEach(node: Node, sock: Socket, peer: Key, names: seq<string>, env: Env)
    requires ListableNames(names)
    ensures var r := ServerData(node, sock, FileListLine(names), env);
      && r.node == node && |r.out| == |names|
      && forall i :: 0 <= i < |names| ==> r.out[i] == Write(sock, RequestFileLine(names[i]))
    ensures ClientData(node, sock, peer, FileListLine(names), env) == ServerData(node, sock, FileListLine(names), env)
  {
    FileListLineParses(names);
  }

  /** The list of an empty directory makes the reader do nothing at all. */
  lemma EmptyFileListDoesNothing(node: Node, sock: Socket, peer: Key, env: Env)
    ensures ServerData(node, sock, FileListLine([]), env) == Step(node, [])
    ensures ClientData(node, sock, peer, FileListLine([]), env) == Step(node, [])
  {
    EmptyFileListIgnored();
    var chunk := FileListLine([]);
    assert ServerData(node, sock, chunk, env) == Transfer(node, sock, Ignored, env);
    assert ClientData(node, sock, peer, chunk, env) == Transfer(node, sock, Ignored, env);
  }

  /** A DATA line stores the decoded payload under its name, overwriting any
      earlier contents; every other file and the registry stay as they
      were, and nothing is written — on either side. */
  lemma DataStores(node: Node, sock: Socket, peer: Key, name: string, token: string, env: Env)
    requires DataRoundTrips(name, token)
    ensures var r := ServerData(node, sock, DataLine(name, token), env);
      && r.out == []
      && r.node.peers == node.peers
      && name in r.node.dir && r.node.dir[name] == env.fromBase64(token)
      && (forall n :: n != name ==> (n in r.node.dir <==> n in node.dir))
      && (forall n :: n != name && n in node.dir ==> r.node.dir[n] == node.dir[n])
    ensures ClientData(node, sock, peer, DataLine(name, token), env) == ServerData(node, sock, DataLine(name, token), env)
  {
    DataLineParses(name, token);
  }

  /** A REQUESTFILE line is answered with exactly one DATA line carrying the
      file when it exists and with nothing otherwise; the node does not
      change — on either side. */
  lemma RequestFileAnswers(node: Node, sock: Socket, peer: Key, name: string, env: Env)
    requires name != [] && ' ' !in name && Trimmed(name)
    ensures var r := ServerData(node, sock, RequestFileLine(name), env);
      && r.node == node
      && (name !in node.dir ==> r.out == [])
      && (name in node.dir ==> r.out == [Write(sock, DataLine(name, env.toBase64(node.dir[name])))])
    ensures ClientData(node, sock, peer, RequestFileLine(name), env) == ServerData(node, sock, RequestFileLine(name), env)
  {
    RequestFileLineParses(name);
  }

  // ----- disconnects -----

  /** The accepting side's `end` deletes only the first entry that holds the
      closing socket; the other entries stay, in their order. */
  lemma ServerEndRemovesFirst(node: Node, sock: Socket, i: nat)
    requires i < |node.peers| && node.peers[i].1 == sock
    requires forall j :: 0 <= j < i ==> node.peers[j].1 != sock
    ensures ServerEnd(node, sock).peers == node.peers[..i] + node.peers[i + 1..]
    ensures ServerEnd(node, sock).dir == node.dir
    ensures Registry.Valid(node.peers) ==>
      Registry.ToMap(ServerEnd(node, sock).peers) == Registry.ToMap(node.peers) - {node.peers[i].0}
  {
    Registry.RemoveFirstWithValueAt(node.peers, sock, i);
    if Registry.Valid(node.peers) {
      Registry.RemoveFirstWithValueMap(node.peers, sock, i);
    }
  }

  /** Every handler of the mirror keeps each key at most once in the
      registry, so the mapping clauses stated under `Registry.Valid` hold
      from the empty registry on. */
  lemma MirrorStepsKeepValid(node: Node, sock: Socket, peer: Key, chunk: string, name: string, contents: Bytes, env: Env)
    requires Registry.Valid(node.peers)
    ensures Registry.Valid(ServerData(node, sock, chunk, env).node.peers)
    ensures Registry.Valid(ClientData(node, sock, peer, chunk, env).node.peers)
    ensures Registry.Valid(ServerEnd(node, sock).peers)
    ensures Registry.Valid(ClientEnd(node, peer).peers)
    ensures Registry.Valid(WatchEvent(node, name, contents, env).node.peers)
  {
    var cmd := ParseServer(Trim(chunk));
    if cmd.Connect? {
      Registry.SetValid(node.peers, Defined(cmd.peer), sock);
    } else {
      TransferKeepsPeers(node, sock, cmd, env);
    }
    cmd := ParseClient(Trim(chunk));
    if cmd.Connected? {
      Registry.SetValid(node.peers, peer, sock);
    } else {
      TransferKeepsPeers(node, sock, cmd, env);
    }
    Registry.RemoveFirstWithValueValid(node.peers, sock);
    Registry.DeleteValid(node.peers, peer);
  }

  lemma TransferKeepsPeers(node: Node, sock: Socket, cmd: Command, env: Env)
    ensures Transfer(node, sock, cmd, env).node.peers == node.peers
  {
  }

  /** `end` of a socket that is not registered changes nothing. */
  lemma ServerEndUnregistered(node: Node, sock: Socket)
    requires sock !in Registry.Values(node.peers)
    ensures ServerEnd(node, sock) == node
  {
    Registry.RemoveFirstWithValueAbsent(node.peers, sock);
  }

  /** One socket that announces two identities is registered twice; its
      `end` removes only the first registration, so the second stays
      mapped to the closed socket. */
  lemma ServerEndLeavesSecondIdentity(node: Node, sock: Socket, a: string, b: string, env: Env)
    requires Registry.Valid(node.peers) && sock !in Registry.Values(node.peers)
    requires Defined(a) !in Registry.Keys(node.peers) && Defined(b) !in Registry.Keys(node.peers)
    requires a != b
    requires a != [] && ' ' !in a && Trimmed(a)
    requires b != [] && ' ' !in b && Trimmed(b)
    ensures var n1 := ServerData(node, sock, ConnectLine(a), env).node;
      var n2 := ServerData(n1, sock, ConnectLine(b), env).node;
      var n3 := ServerEnd(n2, sock);
      && n3.peers == node.peers + [(Defined(b), sock)]
      && Defined(a) !in Registry.ToMap(n3.peers)
      && Defined(b) in Registry.ToMap(n3.peers) && Registry.ToMap(n3.peers)[Defined(b)] == sock
  {
    var p := node.peers;
    var n1 := ServerData(node, sock, ConnectLine(a), env).node;
    ConnectLineRegisters(node, sock, a, env);
    Registry.SetAbsent(p, Defined(a), sock);
    var p1 := p + [(Defined(a), sock)];
    assert n1.peers == p1;
    assert Registry.Keys(p1) == Registry.Keys(p) + [Defined(a)];
    var n2 := ServerData(n1, sock, ConnectLine(b), env).node;
    ConnectLineRegisters(n1, sock, b, env);
    Registry.SetAbsent(p1, Defined(b), sock);
    assert n2.peers == p1 + [(Defined(b), sock)];
    assert p1 + [(Defined(b), sock)] == p + [(Defined(a), sock), (Defined(b), sock)];
    ServerEndRemovesSecond(p, sock, Defined(a), Defined(b));
  }

  lemma ServerEndRemovesSecond(p: Peers, sock: Socket, a: Key, b: Key)
    requires Registry.Valid(p) && sock !in Registry.Values(p)
    requires a !in Registry.Keys(p) && b !in Registry.Keys(p) && a != b
    ensures var r := Registry.RemoveFirstWithValue(p + [(a, sock), (b, sock)], sock);
      && r == p + [(b, sock)]
      && a !in Registry.ToMap(r)
      && b in Registry.ToMap(r) && Registry.ToMap(r)[b] == sock
  {
    var q := p + [(a, sock), (b, sock)];
    forall j | 0 <= j < |p| ensures q[j].1 != sock {
      assert q[j] == p[j] && p[j].1 == Registry.Values(p)[j];
    }
    Registry.RemoveFirstWithValueAt(q, sock, |p|);
    var r := p + [(b, sock)];
    assert q[..|p|] + q[|p| + 1..] == r;
    assert Registry.Valid(r) by {
      forall j | 0 <= j < |p| ensures r[j].0 != b {
        assert r[j].0 == Registry.Keys(p)[j];
      }
    }
    Registry.ToMapAt(r, |p|);
    Registry.ToMapKeys(r, a);
    assert a !in Registry.Keys(r) by {
      forall j | 0 <= j < |r| ensures Registry.Keys(r)[j] != a {
        if j < |p| {
          assert Registry.Keys(r)[j] == Registry.Keys(p)[j];
        }
      }
    }
  }

  /** The dialling side's `end` deletes whatever is registered under the
      dialled key — even a socket that replaced this one there — and no
      other key. */
  lemma ClientEndDeletesKey(node: Node, peer: Key)
    ensures Registry.ToMap(ClientEnd(node, peer).peers) == Registry.ToMap(node.peers) - {peer}
    ensures peer !in Registry.Keys(node.peers) ==> ClientEnd(node, peer) == node
    ensures ClientEnd(node, peer).dir == node.dir
  {
    if peer !in Registry.Keys(node.peers) {
      Registry.DeleteAbsent(node.peers, peer);
    }
  }

  // ----- the watcher -----

  lemma {:induction false} FanoutCounts(peers: Peers, line: string, s: Socket)
    ensures WritesTo(Fanout(peers, line), s) == multiset(Registry.Values(peers))[s]
  {
    if |peers| > 0 {
      FanoutCounts(peers[1..], line, s);
      assert Registry.Values(peers) == [peers[0].1] + Registry.Values(peers[1..]);
      assert Fanout(peers, line) == [Write(peers[0].1, line)] + Fanout(peers[1..], line);
      WritesToAppend([Write(peers[0].1, line)], Fanout(peers[1..], line), s);
    }
  }

  /** The watcher writes the same DATA line to every registered socket, as
      many times as the socket is registered, excluding no one, and
      changes nothing. */
  lemma WatchEventFansOut(node: Node, name: string, contents: Bytes, env: Env, s: Socket)
    ensures var r := WatchEvent(node, name, contents, env);
      && r.node.peers == node.peers
      && r.node.dir == node.dir[name := contents]
      && (forall w :: w in r.out ==> w.line == DataLine(name, env.toBase64(contents)))
      && WritesTo(r.out, s) == multiset(Registry.Values(node.peers))[s]
  {
    FanoutCounts(node.peers, DataLine(name, env.toBase64(contents)), s);
  }

  /** A file received by DATA from a registered peer is written to disk, the
      watcher reports the change, and the DATA line goes straight back to
      the sender: nothing suppresses the echo. */
  lemma {:induction false} ReceivedFileEchoes(node: Node, sock: Socket, name: string, token: string, env: Env)
    requires DataRoundTrips(name, token)
    requires sock in Registry.Values(node.peers)
    ensures var r := ServerData(node, sock, DataLine(name, token), env);
      var echo := WatchEvent(r.node, name, env.fromBase64(token), env);
      && echo.node == r.node
      && WritesTo(echo.out, sock) >= 1
      && forall w :: w in echo.out ==> w.line == DataLine(name, env.toBase64(env.fromBase64(token)))
  {
    var r := ServerData(node, sock, DataLine(name, token), env);
    var contents := env.fromBase64(token);
    DataStores(node, sock, Undefined, name, token, env);
    assert r.node.dir[name := contents] == r.node.dir;
    WatchEventFansOut(r.node, name, contents, env, sock);
    assert sock in multiset(Registry.Values(r.node.peers));
  }

  /** A file that appears in the directory (written locally, say) is
      served to the next peer that requests it. */
  lemma WatchedFileServed(node: Node, name: string, contents: Bytes, env: Env, sock: Socket)
    requires name != [] && ' ' !in name && Trimmed(name)
    ensures var r := WatchEvent(node, name, contents, env);
      ServerData(r.node, sock, RequestFileLine(name), env).out
        == [Write(sock, DataLine(name, env.toBase64(contents)))]
  {
    var r := WatchEvent(node, name, contents, env);
    RequestFileAnswers(r.node, sock, Undefined, name, env);
  }

  // ----- exchanges between two nodes -----

  /** The handshake: the dialling node's first line registers it at the
      accepting node under its identity, and the accepting node's first
      answer registers the dialled socket at the dialling node under the
      key typed in the `connect` command. */
  lemma HandshakeRegistersBoth(
    server: Node, sock: Socket, serverEnv: Env,
    client: Node, clientSock: Socket, peer: Key, clientEnv: Env)
    requires clientEnv.identity != [] && ' ' !in clientEnv.identity && Trimmed(clientEnv.identity)
    requires serverEnv.identity != [] && Trimmed(serverEnv.identity)
    ensures var c0 := ClientConnected(clientSock, clientEnv);
      |c0| == 1 && c0[0].to == clientSock && ParseServer(Trim(c0[0].line)) == Connect(clientEnv.identity)
    ensures var s1 := ServerData(server, sock, ConnectLine(clientEnv.identity), serverEnv);
      && |s1.out| == 2 && s1.out[0] == Write(sock, ConnectedLine(serverEnv.identity))
      && Defined(clientEnv.identity) in Registry.ToMap(s1.node.peers)
      && Registry.ToMap(s1.node.peers)[Defined(clientEnv.identity)] == sock
    ensures var c1 := ClientData(client, clientSock, peer, ConnectedLine(serverEnv.identity), clientEnv);
      peer in Registry.ToMap(c1.node.peers) && Registry.ToMap(c1.node.peers)[peer] == clientSock
  {
    ConnectLineParses(clientEnv.identity);
    var s1 := ServerData(server, sock, ConnectLine(clientEnv.identity), serverEnv);
    ConnectLineRegisters(server, sock, clientEnv.identity, serverEnv);
    assert Registry.ToMap(s1.node.peers) == Registry.ToMap(server.peers)[Defined(clientEnv.identity) := sock];
    var c1 := ClientData(client, clientSock, peer, ConnectedLine(serverEnv.identity), clientEnv);
    ConnectedLineRegisters(client, clientSock, peer, serverEnv.identity, clientEnv);
    assert Registry.ToMap(c1.node.peers) == Registry.ToMap(client.peers)[peer := clientSock];
  }

  /** Fetching one file: the reader of a FILELIST requests the `i`-th name,
      the owner answers with its contents, and the reader stores them under
      that name — provided base64 decoding undoes the encoding. */
  lemma FetchOneFile(
    owner: Node, ownerSock: Socket, ownerEnv: Env,
    reader: Node, readerSock: Socket, peer: Key, readerEnv: Env, i: nat)
    requires ListableNames(ownerEnv.readdir(owner.dir))
    requires i < |ownerEnv.readdir(owner.dir)|
    requires var name := ownerEnv.readdir(owner.dir)[i];
      && name in owner.dir && name != [] && Trimmed(name)
      && DataRoundTrips(name, ownerEnv.toBase64(owner.dir[name]))
      && readerEnv.fromBase64(ownerEnv.toBase64(owner.dir[name])) == owner.dir[name]
    ensures var names := ownerEnv.readdir(owner.dir);
      var name := names[i];
      var token := ownerEnv.toBase64(owner.dir[name]);
      var r1 := ClientData(reader, readerSock, peer, FileListLine(names), readerEnv);
      var o1 := ServerData(owner, ownerSock, RequestFileLine(name), ownerEnv);
      var r2 := ClientData(r1.node, readerSock, peer, DataLine(name, token), readerEnv);
      && |r1.out| == |names| && r1.out[i] == Write(readerSock, RequestFileLine(name))
      && o1.out == [Write(ownerSock, DataLine(name, token))]
      && name in r2.node.dir && r2.node.dir[name] == owner.dir[name]
  {
    var names := ownerEnv.readdir(owner.dir);
    var name := names[i];
    FileListRequestsEach(reader, readerSock, peer, names, readerEnv);
    RequestFileAnswers(owner, ownerSock, peer, name, ownerEnv);
    var r1 := ClientData(reader, readerSock, peer, FileListLine(names), readerEnv);
    DataStores(r1.node, readerSock, peer, name, ownerEnv.toBase64(owner.dir[name]), readerEnv);
  }
}

=== FILE: registry.dfy ===
/**
  A JavaScript `Map` as both source files use it for their peer registry:
  entries kept in insertion order, `set` on a present key replacing the
  value in place, `delete` removing the entry, and iteration (`entries`,
  `values`, `forEach`) in insertion order.

  The registry is a sequence of key/value pairs; `ToMap` is the plain
  mapping it stands for, and the contracts state each operation in terms
  of that mapping and of the key order.
*/
module Registry {

  type Entries<K, V> = seq<(K, V)>

  function Keys<K, V>(r: Entries<K, V>): (ks: seq<K>)
    ensures |ks| == |r|
    ensures forall i :: 0 <= i < |r| ==> ks[i] == r[i].0
  {
    if |r| == 0 then [] else [r[0].0] + Keys(r[1..])
  }

  function Values<K, V>(r: Entries<K, V>): (vs: seq<V>)
    ensures |vs| == |r|
    ensures forall i :: 0 <= i < |r| ==> vs[i] == r[i].1
  {
    if |r| == 0 then [] else [r[0].1] + Values(r[1..])
  }

  /** A `Map` never holds two entries with the same key. */
  predicate Valid<K(==), V>(r: Entries<K, V>) {
    forall i, j :: 0 <= i < j < |r| ==> r[i].0 != r[j].0
  }

  /** The mapping the registry stands for. */
  function ToMap<K(==), V>(r: Entries<K, V>): (m: map<K, V>)
    ensures forall i :: 0 <= i < |r| ==> r[i].0 in m
  {
    if |r| == 0 then map[] else ToMap(r[1..])[r[0].0 := r[0].1]
  }

  /** The mapping holds a key exactly when some entry carries it. */
  lemma {:induction false} ToMapKeys<K, V>(r: Entries<K, V>, k: K)
    ensures k in ToMap(r) <==> k in Keys(r)
  {
    if |r| > 0 {
      ToMapKeys(r[1..], k);
      assert Keys(r) == [r[0].0] + Keys(r[1..]);
    }
  }

  /** In a valid registry every entry is what the mapping gives for its key. */
  lemma {:induction false} ToMapAt<K, V>(r: Entries<K, V>, i: nat)
    requires Valid(r) && i < |r|
    ensures ToMap(r)[r[i].0] == r[i].1
  {
    if i > 0 {
      assert r[1..][i - 1] == r[i];
      ToMapAt(r[1..], i - 1);
    }
  }

  /** `map.set(k, v)`: a present key keeps its place and takes the new
      value; an absent key is appended. */
  function Set<K(==), V>(r: Entries<K, V>, k: K, v: V): (r': Entries<K, V>)
    ensures ToMap(r') == ToMap(r)[k := v]
    ensures k in Keys(r) ==> Keys(r') == Keys(r)
    ensures k !in Keys(r) ==> Keys(r') == Keys(r) + [k]
  {
    if |r| == 0 then [(k, v)]
    else if r[0].0 == k then [(k, v)] + r[1..]
    else
      var tail := Set(r[1..], k, v);
      assert Keys(r) == [r[0].0] + Keys(r[1..]);
      assert Keys([r[0]] + tail) == [r[0].0] + Keys(tail);
      [r[0]] + tail
  }

  /** `set` of an absent key appends one entry at the end. */
  lemma {:induction false} SetAbsent<K, V>(r: Entries<K, V>, k: K, v: V)
    requires k !in Keys(r)
    ensures Set(r, k, v) == r + [(k, v)]
  {
    if |r| > 0 {
      var tail := r[1..];
      assert Keys(r) == [r[0].0] + Keys(tail);
      assert r[0].0 != k;
      SetAbsent(tail, k, v);
      calc {
        Set(r, k, v);
        [r[0]] + Set(tail, k, v);
        [r[0]] + (tail + [(k, v)]);
        { assert r == [r[0]] + tail; }
        r + [(k, v)];
      }
    }
  }

  /** `set` keeps the keys distinct. */
  lemma SetValid<K, V>(r: Entries<K, V>, k: K, v: V)
    requires Valid(r)
    ensures Valid(Set(r, k, v))
  {
    var r' := Set(r, k, v);
    var ks, ks' := Keys(r), Keys(r');
    assert forall i, j :: 0 <= i < j < |r| ==> ks[i] != ks[j];
    assert forall i, j :: 0 <= i < j < |r'| ==> ks'[i] != ks'[j];
  }

  /** `map.delete(k)`: the entry for `k` goes, every other entry stays. */
  function Delete<K(==), V>(r: Entries<K, V>, k: K): (r': Entries<K, V>)
    ensures ToMap(r') == ToMap(r) - {k}
  {
    if |r| == 0 then []
    else if r[0].0 == k then Delete(r[1..], k)
    else [r[0]] + Delete(r[1..], k)
  }

  /** `delete` only drops entries: every entry left was in the registry. */
  lemma {:induction false} DeleteKeepsEntries<K, V>(r: Entries<K, V>, k: K)
    ensures forall e :: e in Delete(r, k) ==> e in r && e.0 != k
  {
    if |r| > 0 {
      DeleteKeepsEntries(r[1..], k);
    }
  }

  /** `delete` keeps the keys distinct. */
  lemma {:induction false} DeleteValid<K, V>(r: Entries<K, V>, k: K)
    requires Valid(r)
    ensures Valid(Delete(r, k))
  {
    if |r| > 0 {
      var tail := r[1..];
      ValidTail(r);
      DeleteValid(tail, k);
      if r[0].0 != k {
        var d := Delete(tail, k);
        DeleteKeepsEntries(tail, k);
        forall j | 0 <= j < |d| ensures d[j].0 != r[0].0 {
          var m :| 0 <= m < |tail| && tail[m] == d[j];
          assert tail[m] == r[m + 1];
        }
        var r' := Delete(r, k);
        assert r' == [r[0]] + d;
        forall i, j | 0 <= i < j < |r'| ensures r'[i].0 != r'[j].0 {
          if i == 0 {
            assert r'[j] == d[j - 1];
          } else {
            assert r'[i] == d[i - 1] && r'[j] == d[j - 1];
          }
        }
      }
    }
  }

  /** Deleting an absent key changes nothing. */
  lemma {:induction false} DeleteAbsent<K, V>(r: Entries<K, V>, k: K)
    requires k !in Keys(r)
    ensures Delete(r, k) == r
  {
    if |r| > 0 {
      assert Keys(r) == [r[0].0] + Keys(r[1..]);
      DeleteAbsent(r[1..], k);
    }
  }

  /** In a valid registry, deleting the key of entry `i` removes exactly that
      entry, leaving the others in their order. */
  lemma {:induction false} DeleteAt<K, V>(r: Entries<K, V>, i: nat)
    requires Valid(r) && i < |r|
    ensures Delete(r, r[i].0) == r[..i] + r[i + 1..]
  {
    var k := r[i].0;
    var tail := r[1..];
    ValidTail(r);
    if i == 0 {
      assert k !in Keys(tail) by {
        forall j | 0 <= j < |tail| ensures tail[j].0 != k {
          assert tail[j] == r[j + 1];
        }
      }
      DeleteAbsent(tail, k);
    } else {
      assert r[0].0 != k;
      assert tail[i - 1] == r[i];
      DeleteAt(tail, i - 1);
      assert Delete(r, k) == [r[0]] + (tail[..i - 1] + tail[i..]);
      assert tail[..i - 1] == r[1..i];
      assert tail[i..] == r[i + 1..];
      assert r[..i] == [r[0]] + r[1..i];
    }
  }

  lemma ValidTail<K, V>(r: Entries<K, V>)
    requires Valid(r) && |r| > 0
    ensures Valid(r[1..])
  {
    var tail := r[1..];
    forall i, j | 0 <= i < j < |tail| ensures tail[i].0 != tail[j].0 {
      assert tail[i] == r[i + 1] && tail[j] == r[j + 1];
    }
  }

  /** The loop of the server's `end` handler: walk the entries in order and
      remove the first one whose value is `v`, then stop. */
  function RemoveFirstWithValue<K, V(==)>(r: Entries<K, V>, v: V): Entries<K, V> {
    if |r| == 0 then []
    else if r[0].1 == v then r[1..]
    else [r[0]] + RemoveFirstWithValue(r[1..], v)
  }

  /** The `end` loop only drops an entry: every entry left was in the registry. */
  lemma {:induction false} RemoveFirstWithValueKeepsEntries<K, V>(r: Entries<K, V>, v: V)
    ensures forall e :: e in RemoveFirstWithValue(r, v) ==> e in r
  {
    if |r| > 0 && r[0].1 != v {
      RemoveFirstWithValueKeepsEntries(r[1..], v);
    }
  }

  /** The `end` loop keeps the keys distinct. */
  lemma {:induction false} RemoveFirstWithValueValid<K, V>(r: Entries<K, V>, v: V)
    requires Valid(r)
    ensures Valid(RemoveFirstWithValue(r, v))
  {
    if |r| > 0 {
      var tail := r[1..];
      ValidTail(r);
      if r[0].1 != v {
        RemoveFirstWithValueValid(tail, v);
        var d := RemoveFirstWithValue(tail, v);
        RemoveFirstWithValueKeepsEntries(tail, v);
        forall j | 0 <= j < |d| ensures d[j].0 != r[0].0 {
          assert d[j] in d;
          var m :| 0 <= m < |tail| && tail[m] == d[j];
          assert tail[m] == r[m + 1];
        }
        var r' := RemoveFirstWithValue(r, v);
        assert r' == [r[0]] + d;
        forall i, j | 0 <= i < j < |r'| ensures r'[i].0 != r'[j].0 {
          if i == 0 {
            assert r'[j] == d[j - 1];
          } else {
            assert r'[i] == d[i - 1] && r'[j] == d[j - 1];
          }
        }
      }
    }
  }

  /** When no entry holds `v`, the `end` loop changes nothing. */
  lemma {:induction false} RemoveFirstWithValueAbsent<K, V>(r: Entries<K, V>, v: V)
    requires v !in Values(r)
    ensures RemoveFirstWithValue(r, v) == r
  {
    if |r| > 0 {
      assert Values(r) == [r[0].1] + Values(r[1..]);
      RemoveFirstWithValueAbsent(r[1..], v);
    }
  }

  /** When entry `i` is the first holding `v`, exactly that entry is removed. */
  lemma {:induction false} RemoveFirstWithValueAt<K, V>(r: Entries<K, V>, v: V, i: nat)
    requires i < |r| && r[i].1 == v
    requires forall j :: 0 <= j < i ==> r[j].1 != v
    ensures RemoveFirstWithValue(r, v) == r[..i] + r[i + 1..]
  {
    if i > 0 {
      var tail := r[1..];
      assert tail[i - 1] == r[i];
      forall j | 0 <= j < i - 1 ensures tail[j].1 != v {
        assert tail[j] == r[j + 1];
      }
      RemoveFirstWithValueAt(tail, v, i - 1);
      assert r[0].1 != v;
      calc {
        RemoveFirstWithValue(r, v);
        [r[0]] + RemoveFirstWithValue(tail, v);
        [r[0]] + (tail[..i - 1] + tail[i..]);
        { assert tail[..i - 1] == r[1..i] && tail[i..] == r[i + 1..]; }
        [r[0]] + (r[1..i] + r[i + 1..]);
        { assert r[..i] == [r[0]] + r[1..i]; }
        r[..i] + r[i + 1..];
      }
    } else {
      assert r[..i] + r[i + 1..] == r[1..];
    }
  }

  /** In a valid registry the `end` loop takes exactly the key of the entry it
      removes out of the mapping. */
  lemma RemoveFirstWithValueMap<K, V>(r: Entries<K, V>, v: V, i: nat)
    requires Valid(r) && i < |r| && r[i].1 == v
    requires forall j :: 0 <= j < i ==> r[j].1 != v
    ensures ToMap(RemoveFirstWithValue(r, v)) == ToMap(r) - {r[i].0}
  {
    RemoveFirstWithValueAt(r, v, i);
    DeleteAt(r, i);
  }
}

=== FILE: sockets.dfy ===
/**
  What both peer registries have in common: sockets are opaque ids, a
  registry is a JavaScript `Map` from a key (a string, or `undefined` when
  the source destructures a missing piece) to a socket, and a
  `socket.write(line)` is recorded as data instead of being performed.
*/
module Sockets {
  import opened JsString
  import Registry

  type Socket = nat

  type Key = Undefinable<string>

  type Peers = Registry.Entries<Key, Socket>

  /** One `socket.write(line)`. */
  datatype Write = Write(to: Socket, line: string)

  /** How many of the writes go to socket `s`. */
  function WritesTo(out: seq<Write>, s: Socket): nat {
    if |out| == 0 then 0
    else (if out[0].to == s then 1 else 0) + WritesTo(out[1..], s)
  }

  lemma WritesToAppend(a: seq<Write>, b: seq<Write>, s: Socket)
    ensures WritesTo(a + b, s) == WritesTo(a, s) + WritesTo(b, s)
  {
    if |a| > 0 {
      assert (a + b)[1..] == a[1..] + b;
      WritesToAppend(a[1..], b, s);
    } else {
      assert a + b == b;
    }
  }
}
